=== FILE: README.md ===
# Goals page registry

A model of the goal registry of the H5P Goals Page content type
(`H5P.GoalsPage`). The page keeps an ordered goal list and an id counter.
Learners create their own goals, pick predefined goals from a curriculum
dialog, add specifications under a predefined goal, edit goal texts in
place and remove goals; removing a predefined goal takes its
specifications with it. A counter above the list displays the length of
the goal list, but the page rewrites it only when a goal is added or
removed. A setting restricts the curriculum dialog to a comma-separated
list of curriculum ids.

Modules:

- `Sequences` (sequences.dfy): duplicate-free and increasing id
  sequences. Also the three ways the page takes ids out of an array:
  `indexOf` + `splice`, a last-match `forEach` scan + `splice`, and the
  filter both agree with on duplicate-free lists.
- `GoalInstance` (goal_instance.dfy): the goal record, its three kinds
  with their numeric codes, and the record-level updates the page calls.
- `GoalsPage` (goals_page.dfy): the registry state, its invariant
  `Valid`, and the operations:
  - add a goal;
  - add a specification;
  - look up by id, with the -1 sentinel modelled as `NotFound`;
  - remove a goal or a specification;
  - add the dialog's chosen aims;
  - commit an edited text when the input loses focus.
- `GoalsCounter` (goals_counter.dfy): the counter text computed from the
  goal list.
- `CounterDisplay` (counter_display.dfy): the counter text as displayed,
  which only some handlers rewrite (see "## Findings").
- `CurriculumFilter` (curriculum_filter.dfy): splitting and trimming of
  the curriculum id setting.
- `GoalsPageTraces` (goals_page_traces.dfy): runs sequences of button
  clicks against the registry. Every reachable registry is valid, and an
  id that left the page never comes back.

The registry is a list of ids `goalList` in push order, a map `arena`
from id to record, and the counter `goalId`. A record's `specs` and
`parent` fields hold ids, not object references. `Valid` says four
things:
- the list and the map hold the same ids;
- ids increase strictly along the list and stay below the counter;
- every record is keyed by its own id;
- every parent/child link is consistent in both directions.

## Model

| member | source | states |
|---|---|---|
| GoalInstance.KindCode | scripts/goals-page.js:11-14 | every goal kind has a numeric code between 0 and 2, as the page numbers them |
| GoalInstance.NewGoal | scripts/goals-page.js:137 | a new record carries the given id, kind, text and description, has no answer (-1), no specifications and no parent |
| GoalInstance.NewSpecification | scripts/goals-page.js:208 | a specification record has kind PredefinedSpecification, the placeholder text, the "specify" label as description, and points back to its parent |
| GoalInstance.AddSpecificationChild | scripts/goals-page.js:208 | the parent's specification list grows by exactly the new id at its end; nothing else of the parent changes |
| GoalInstance.RemoveSpecificationChild | scripts/goals-page.js:243 | removing a listed specification shortens the parent's list by one; an unlisted id leaves the parent unchanged |
| GoalsPage.InitialValid | scripts/goals-page.js:58-59 | the freshly attached page (empty list, counter 0) satisfies the registry invariant and counts no goals |
| GoalsPage.Count | scripts/goals-page.js:284-287 | `goalList.length`: the number of records on the list, specifications included |
| GoalsPage.LastMatch | scripts/goals-page.js:298-303 | the scan returns a record with the wanted id after which no later entry matches, and NotFound only when no entry matches |
| GoalsPage.GetGoalInstanceFromUniqueId | scripts/goals-page.js:297-306 | a found goal has the wanted id and is on the list; the -1 sentinel comes back exactly when no listed record has that id |
| GoalsPage.FindGoal | scripts/goals-page.js:297-306 | the forEach scan, run as a loop that overwrites the match, agrees with the lookup on every list and id |
| GoalsPage.LookupFindsKey | scripts/goals-page.js:297-306 | on a valid registry the lookup returns exactly the record stored under the id, or the sentinel when the id is not in use |
| GoalsPage.GoalFor | scripts/goals-page.js:125-137 | without an aim: a user goal with the placeholder text and the "user defined" label; with an aim: a predefined goal with the aim's text and its curriculum's name |
| GoalsPage.AddGoal | scripts/goals-page.js:125-139 | the list grows by one entry at its end carrying the counter's old value, earlier entries stay in place, and the counter moves up by one |
| GoalsPage.AddGoalAppends | scripts/goals-page.js:125-139 | the page's record list becomes the old one plus exactly the new record, and looking up the new id finds it |
| GoalsPage.CounterIsFresh | scripts/goals-page.js:137-139 | on a valid registry the counter's value is not yet used by any record, so the id handed out is new |
| GoalsPage.AddGoalPreservesValid | scripts/goals-page.js:125-139 | adding a goal keeps the registry invariant |
| GoalsPage.AddSpecificationToGoal | scripts/goals-page.js:201-215 | one entry more, appended with the counter's old value, and the counter moves up by one |
| GoalsPage.AddSpecificationEffect | scripts/goals-page.js:201-215 | the parent's answer becomes -1 and its specification list gains the new id at its end; the new record is a specification pointing to the parent; every other record is untouched |
| GoalsPage.AddSpecificationPreservesValid | scripts/goals-page.js:201-215 | adding a specification to a predefined goal keeps the registry invariant |
| GoalsPage.RemoveSpecification | scripts/goals-page.js:238-249 | only a specification changes anything; the goal list, counter and set of ids stay as they were |
| GoalsPage.RemoveChildSpecifications | scripts/goals-page.js:255-275 | only a predefined goal changes anything; the list only loses entries and the counter stays |
| GoalsPage.RemoveGoal | scripts/goals-page.js:221-232 | removal never hands out or changes ids: the counter stays and no new entry appears |
| GoalsPage.RemoveGoalList | scripts/goals-page.js:224-229 | the resulting list is the old list with the goal and, for a predefined goal, its specifications filtered out |
| GoalsPage.RemoveGoalKeys | scripts/goals-page.js:221-229 | exactly the removed ids leave the set of ids in use |
| GoalsPage.RemoveGoalFilters | scripts/goals-page.js:221-229 | the survivors keep their relative order: the new list is a subsequence of the old one |
| GoalsPage.RemovedIdsCardinality | scripts/goals-page.js:255-275 | a predefined goal with N specifications accounts for N+1 listed ids, any other goal for 1 |
| GoalsPage.RemoveGoalCount | scripts/goals-page.js:221-232 | the count drops by N+1 for a predefined goal with N specifications and by 1 for any other goal |
| GoalsPage.RemoveGoalRecords | scripts/goals-page.js:238-249 | a removed specification disappears from its parent's list, which shrinks by one; every other surviving record is unchanged |
| GoalsPage.RemovedGoalUnreferenced | scripts/goals-page.js:255-275 | once a goal and its specifications are removed, no surviving record refers to any of them |
| GoalsPage.RemoveGoalPreservesValid | scripts/goals-page.js:221-232 | removal keeps the registry invariant and leaves no record naming the removed goal as its parent |
| GoalsPage.AddGoals | scripts/goals-page.js:374-377 | the dialog's aims add one entry each, after the existing entries, and advance the counter by their number |
| GoalsPage.AddGoalsAppends | scripts/goals-page.js:374-377 | the k-th chosen aim becomes the predefined goal at position old length + k, with id old counter + k |
| GoalsPage.AddGoalsKeepsOld | scripts/goals-page.js:374-377 | goals already on the page are not touched by the dialog's additions |
| GoalsPage.AddGoalsPreservesValid | scripts/goals-page.js:374-377 | adding the chosen aims keeps the registry invariant |
| GoalsPage.FocusedText | scripts/goals-page.js:459-461 | on focus the placeholder text is cleared, and any other text is kept |
| GoalsPage.BlurredText | scripts/goals-page.js:483-486 | a non-empty input is kept as typed; an emptied input stores the placeholder, so with a non-empty placeholder the stored text is never empty |
| GoalsPage.FocusBlurKeepsText | scripts/goals-page.js:457-489 | focusing an input and leaving it unedited gives back a non-empty text it showed, the placeholder included; an empty text is replaced by the placeholder |
| GoalsPage.CommitGoalText | scripts/goals-page.js:483-489 | committing a text never changes the list, the counter or the ids in use |
| GoalsPage.CommitGoalTextEffect | scripts/goals-page.js:483-489 | only the text of the edited goal changes: a non-empty input is stored as typed and an emptied input stores the placeholder; the invariant holds; an unedited focus and blur leaves the registry as it was when the goal's text is non-empty, and stores the placeholder when it is empty |
| GoalsCounter.Decimal | scripts/goals-page.js:287 | the count is written as non-empty decimal digits without a leading zero |
| GoalsCounter.DecimalRoundTrip | scripts/goals-page.js:287 | the digits shown read back as the count they were written from |
| GoalsCounter.DecimalInjective | scripts/goals-page.js:287 | different counts show different digits |
| GoalsCounter.CounterText | scripts/goals-page.js:280-290 | nothing is shown exactly when the list is empty; otherwise the text is the count's digits without a leading zero, one space and the "goals added" label, and the digits read back as the number of entries |
| GoalsCounter.CounterTextDistinguishes | scripts/goals-page.js:287 | lists of different lengths get different counter texts |
| GoalsCounter.CounterShownAfterAdd | scripts/goals-page.js:138-144 | after a goal is added the counter is shown |
| CurriculumFilter.Split | scripts/goals-page.js:358 | one piece more than there are commas, and no piece contains a comma |
| CurriculumFilter.SplitJoin | scripts/goals-page.js:358 | joining the pieces with the separator rebuilds the string |
| CurriculumFilter.JoinSplit | scripts/goals-page.js:358 | comma-free pieces joined with commas split back into the same pieces |
| CurriculumFilter.Trim | scripts/goals-page.js:360 | the result has no white space at either end and is no longer than the input |
| CurriculumFilter.TrimUnique | scripts/goals-page.js:360 | trimming removes exactly the white space around a trimmed core |
| CurriculumFilter.TrimIdempotent | scripts/goals-page.js:360 | trimming twice is trimming once |
| CurriculumFilter.GetFilteredIdList | scripts/goals-page.js:354-364 | an undefined or empty setting gives no ids; otherwise there is one id per comma plus one, each trimmed and comma-free |
| CurriculumFilter.FilterOfFields | scripts/goals-page.js:354-364 | the setting's ids are its comma-separated fields, each trimmed, in order |
| CurriculumFilter.FilterRoundTrip | scripts/goals-page.js:354-364 | trimmed comma-free ids, padded with white space and joined by commas into a non-empty setting, come back out unchanged |
| CurriculumFilter.FilterOfThreeFields | scripts/goals-page.js:354-364 | a three-field setting gives its three trimmed fields |
| CurriculumFilter.EmptyFieldKept | scripts/goals-page.js:358-361 | two adjacent commas give an empty id, which is kept and not dropped |
| Sequences.RemoveFirst | scripts/goals-page.js:227-229 | indexOf and splice remove one entry when the value is present, and change nothing otherwise; which entry goes is stated by RemoveFirstAt |
| Sequences.RemoveLast | scripts/goals-page.js:263-271 | the last-match scan and splice remove one entry when the value is present, and change nothing otherwise; which entry goes is stated by RemoveLastAt |
| Sequences.FirstIndex | scripts/goals-page.js:227 | the index `indexOf` returns for a present value holds that value, and no earlier entry does |
| Sequences.LastIndex | scripts/goals-page.js:263-268 | the index the overwriting scan ends with holds the value, and no later entry does |
| Sequences.RemoveFirstAt | scripts/goals-page.js:227-229 | for any list holding the value, indexOf and splice cut out exactly the first entry equal to it and keep the rest in order |
| Sequences.RemoveLastAt | scripts/goals-page.js:263-271 | for any list holding the value, the last-match scan and splice cut out exactly the last entry equal to it and keep the rest in order |
| Sequences.RemoveFirstIsWithout | scripts/goals-page.js:227-229 | on a duplicate-free list, indexOf and splice is the same as filtering the value out |
| Sequences.RemoveLastIsWithout | scripts/goals-page.js:263-271 | on a duplicate-free list, the last-match scan and splice is the same as filtering the value out |
| Sequences.RemoveEachLast | scripts/goals-page.js:261-272 | each child is taken off in turn by the last-match scan and splice; only entries of the original list remain |
| Sequences.RemoveEachLastIsWithout | scripts/goals-page.js:261-272 | removing the specifications one by one is the same as filtering them all out at once |
| Sequences.RemoveEachThenFirst | scripts/goals-page.js:224-229 | dropping the children and then the goal filters exactly those ids out of the list |
| GoalsPageTraces.Step | scripts/goals-page.js:114-118 | one click of any handler (create, dialog finish, Specify, Remove, blur); a successful click leaves a valid registry whose counter did not go back and whose new ids are all fresh |
| GoalsPageTraces.StepFailures | scripts/goals-page.js:437-439 | a click naming an id not in use fails with UnknownId, and only then; Specify fails with InvalidOperation exactly for a goal that is not predefined; creating and choosing goals never fail |
| GoalsPageTraces.CreateGrows | scripts/goals-page.js:114-118 | the "Create a new goal" button keeps the registry valid and adds only a fresh id |
| GoalsPageTraces.ChooseGrows | scripts/goals-page.js:374-377 | finishing the dialog with any list of aims keeps the registry valid and adds only fresh ids |
| GoalsPageTraces.SpecifyGrows | scripts/goals-page.js:541-547 | the Specify button on a predefined goal keeps the registry valid and adds only a fresh id |
| GoalsPageTraces.RemoveGrows | scripts/goals-page.js:594-596 | the Remove button keeps the registry valid and adds no id |
| GoalsPageTraces.CommitGrows | scripts/goals-page.js:471-490 | leaving an input keeps the registry valid and adds no id |
| GoalsPageTraces.Run | scripts/goals-page.js:102-118 | every registry reached by a sequence of clicks from a valid one is valid, and the counter never goes back |
| GoalsPageTraces.RemovedIdStaysRemoved | scripts/goals-page.js:208-212 | an id below the counter that is not in use is never used again, whatever clicks follow |
| GoalsPageTraces.ListLengthScenario | scripts/goals-page.js:201-215 | a user goal, a chosen goal and one specification of it add three entries to the goal list, because specifications are listed too |
| GoalsPageTraces.CascadeScenario | scripts/goals-page.js:255-275 | a chosen goal with two specifications adds three entries, and removing the goal takes all three away again |
| GoalsPageTraces.ListLengthFromInitial | scripts/goals-page.js:201-215 | from a fresh page, creating a goal, choosing an aim and specifying it leaves three entries on the goal list |
| GoalsPageTraces.CascadeFromInitial | scripts/goals-page.js:221-232 | from a fresh page, a chosen goal specified twice leaves three entries, and removing it empties the list |
| CounterDisplay.ShownAfter | scripts/goals-page.js:541-547 | the displayed counter text after a run of clicks; only create, a non-empty dialog finish and Remove rewrite it as written (Specify too when corrected); an empty run leaves it as it was, and the lemmas below carry the rest |
| CounterDisplay.ShownCounterTracksList | scripts/goals-page.js:280-290 | with the corrected handlers, a displayed counter that matches the list keeps matching it after any run of clicks |
| CounterDisplay.ShownScenario | scripts/goals-page.js:541-547 | after create, choose, Specify, the displayed text is the one for the list before the Specify click as written, and the one for the final list when corrected |
| CounterDisplay.StaleCounterAfterSpecify | scripts/goals-page.js:541-547 | as written, from a fresh page, create, choose, Specify leaves three entries while the counter displays the text for two |
| CounterDisplay.CorrectedCounterAfterSpecify | scripts/goals-page.js:541-547 | with the corrected handlers the same clicks display the text for three entries |

## Left out

- Rendering is not modelled, and neither is anything else that does not touch the registry:
  - the DOM, Mustache templates, CSS classes, hover and focus styling;
  - the help-text dialog, `resize`, and the timers around focus changes;
  - `getGoalElementFromGoalInstance`, `getTitle` and `getGoals`.
- The curriculum dialog (`H5P.GoalsPage.GrepDialogBox`) is not part of this model. Its result is a parameter: the list of chosen aims passed to `AddGoals`.
- `H5P.GoalsPage.GoalInstance` is not part of this model. Its behaviour is assumed as the page uses it:
  - a new record starts with answer -1 (`UnsetAnswer`);
  - `addSpecification` appends the new child at the end;
  - `removeSpecification` on the parent removes the child by indexOf and splice.
- Answers set by other components are not modelled. Only the reset to -1 when a specification is added is.
- The page's default settings are not modelled. `Params` holds the four strings the registry reads: the placeholder, the two labels and "goals added". The curriculum list setting is passed to `GetFilteredIdList` directly.
- Error handling:
  - `GoalsPageTraces.Step` reports two recoverable failures: `UnknownId` for an id that is not in use, and `InvalidOperation` for Specify on a goal that is not predefined.
  - The page's code raises neither. It calls methods on the -1 sentinel, and offers the Specify button only on predefined goals.
  - So `AddSpecificationToGoal`, `RemoveGoal` and `CommitGoalText` take a found goal (and a predefined goal) as preconditions.
- GoalsPageTraces.Step: Specify on a goal that is not predefined is reported as a failure. The page cannot reach that case, because it offers no button for it.
- Characters are Dafny `char`s, not UTF-16 code units. The white-space set used by `trim` is written out as the ECMAScript list.
- GoalsCounter.Decimal: writes any natural number. JavaScript's number-to-string switches to exponent notation at 10^21, far beyond any number of goals a page could hold.
- Ids are unbounded integers. JavaScript numbers lose exactness above 2^53, which the counter never reaches in practice.

## Findings

| source | as written | input that shows it | evidently intended | confidence | as-written member | corrected member |
|---|---|---|---|---|---|---|
| scripts/goals-page.js:541-547 | the Specify handler adds an entry to the goal list through `addSpecificationToGoal` (201-215) but never calls `updateGoalsCounter`, which only `addGoal` (144) and `removeGoal` (231) call | from a fresh page: create a goal, choose one aim, click Specify on it; the list holds 3 entries and the counter still displays the text for 2 | the counter is refreshed after a specification is added, as after every other change to the list (the comment at line 277 calls the count the "amount of chosen goals", which could also mean specifications should not count; the displayed text disagrees with the list under either reading) | medium, not executed | CounterDisplay.StaleCounterAfterSpecify | CounterDisplay.ShownCounterTracksList |

=== FILE: counter_display.dfy ===
/** The counter text as the page displays it. The text is stored in the page
    and rewritten only when a handler calls `updateGoalsCounter`. As written,
    `addGoal` and `removeGoal` refresh it, but the Specify handler does not,
    so after a specification is added the displayed count lags behind the
    goal list. `corrected` selects the handler set that also refreshes on
    Specify. */
module CounterDisplay {
  import opened Sequences
  import opened GoalInstance
  import opened GoalsPage
  import opened GoalsCounter
  import opened GoalsPageTraces

  /** Whether action `a` rewrites the displayed counter. As written: creating
      a goal, each aim the dialog adds, and removal. Corrected: Specify as
      well. Committing a text never changes the list, so it needs no refresh. */
  predicate Refreshes(a: Action, corrected: bool) {
    match a
    case CreateGoal => true
    case ChooseAims(aims) => aims != []
    case Specify(_) => corrected
    case Remove(_) => true
    case Commit(_, _) => false
  }

  /** The displayed counter after running `actions` from `r`, starting from
      the displayed text `shown`. A failing action stops the run. */
  function ShownAfter(corrected: bool, r: Registry, p: Params, shown: Option<string>, actions: seq<Action>): (res: Option<string>)
    requires Valid(r)
    ensures actions == [] ==> res == shown
    decreases |actions|
  {
    if actions == [] then shown
    else
      match Step(r, p, actions[0])
      case Failed(_) => shown
      case Done(r1) =>
        var shown1 := if Refreshes(actions[0], corrected) then CounterText(r1, p) else shown;
        ShownAfter(corrected, r1, p, shown1, actions[1..])
  }

  /** The counter text depends on the goal list alone. */
  lemma CounterTextOfList(r: Registry, r': Registry, p: Params)
    requires r.goalList == r'.goalList
    ensures CounterText(r, p) == CounterText(r', p)
  {
  }

  /** An action that does not refresh the counter, under the corrected set,
      leaves the goal list as it was. */
  lemma QuietStepKeepsList(r: Registry, p: Params, a: Action)
    requires Valid(r) && Step(r, p, a).Done? && !Refreshes(a, true)
    ensures Step(r, p, a).reg.goalList == r.goalList
  {
    if a.ChooseAims? {
      assert AddGoals(r, p, []) == r;
    }
  }

  /** With the corrected handlers, a counter that matches the list keeps
      matching it after any run of actions. */
  lemma {:induction false} ShownCounterTracksList(r: Registry, p: Params, shown: Option<string>, actions: seq<Action>)
    requires Valid(r) && shown == CounterText(r, p)
    ensures Run(r, p, actions).Done? ==>
      ShownAfter(true, r, p, shown, actions) == CounterText(Run(r, p, actions).reg, p)
    decreases |actions|
  {
    if actions != [] {
      var a := actions[0];
      var step := Step(r, p, a);
      if step.Done? {
        var r1 := step.reg;
        if !Refreshes(a, true) {
          QuietStepKeepsList(r, p, a);
          CounterTextOfList(r, r1, p);
        }
        var shown1 := if Refreshes(a, true) then CounterText(r1, p) else shown;
        ShownCounterTracksList(r1, p, shown1, actions[1..]);
      }
    }
  }

  /** Running a non-empty list displays what its first step leaves shown,
      followed by the rest. `r1` is the registry after the first step and
      `shown1` the counter it leaves displayed. */
  lemma ShownCons(corrected: bool, r: Registry, p: Params, shown: Option<string>, a: Action, rest: seq<Action>,
                  r1: Registry, shown1: Option<string>)
    requires Valid(r) && Step(r, p, a) == Done(r1)
    requires shown1 == if Refreshes(a, corrected) then CounterText(r1, p) else shown
    ensures ShownAfter(corrected, r, p, shown, [a] + rest) == ShownAfter(corrected, r1, p, shown1, rest)
  {
    assert ([a] + rest)[0] == a && ([a] + rest)[1..] == rest;
  }

  /** Creating a goal first refreshes the counter under either handler set. */
  lemma ShownCreate(corrected: bool, r: Registry, p: Params, shown: Option<string>, rest: seq<Action>)
    requires Valid(r)
    ensures Valid(AddGoal(r, p, None))
    ensures ShownAfter(corrected, r, p, shown, [CreateGoal] + rest) ==
      ShownAfter(corrected, AddGoal(r, p, None), p, CounterText(AddGoal(r, p, None), p), rest)
  {
    AddGoalPreservesValid(r, p, None);
    ShownCons(corrected, r, p, shown, CreateGoal, rest, AddGoal(r, p, None), CounterText(AddGoal(r, p, None), p));
  }

  /** Choosing one aim first refreshes the counter under either handler set. */
  lemma ShownChooseOne(corrected: bool, r: Registry, p: Params, shown: Option<string>, aim: CompetenceAim, rest: seq<Action>)
    requires Valid(r)
    ensures Valid(AddGoals(r, p, [aim]))
    ensures ShownAfter(corrected, r, p, shown, [ChooseAims([aim])] + rest) ==
      ShownAfter(corrected, AddGoals(r, p, [aim]), p, CounterText(AddGoals(r, p, [aim]), p), rest)
  {
    AddGoalsPreservesValid(r, p, [aim]);
    ShownCons(corrected, r, p, shown, ChooseAims([aim]), rest, AddGoals(r, p, [aim]), CounterText(AddGoals(r, p, [aim]), p));
  }

  /** Specifying a predefined goal as the last action refreshes the counter
      only under the corrected handler set. */
  lemma ShownSpecifyLast(corrected: bool, r: Registry, p: Params, shown: Option<string>, g: int)
    requires Valid(r) && g in r.arena && r.arena[g].kind == Predefined
    ensures Valid(AddSpecificationToGoal(r, p, g))
    ensures ShownAfter(corrected, r, p, shown, [Specify(g)]) ==
      if corrected then CounterText(AddSpecificationToGoal(r, p, g), p) else shown
  {
    LookupFindsKey(r, g);
    AddSpecificationPreservesValid(r, p, g);
    StepSpecify(r, p, g);
    var r1 := AddSpecificationToGoal(r, p, g);
    var shown1 := if corrected then CounterText(r1, p) else shown;
    ShownCons(corrected, r, p, shown, Specify(g), [], r1, shown1);
    assert [Specify(g)] == [Specify(g)] + [];
    assert ShownAfter(corrected, r1, p, shown1, []) == shown1;
  }

  /** "Choose one aim, specify it": the displayed counter ends at the text
      for the list after the aim was added (as written) or after the
      specification was added (corrected). `g` is the chosen goal's id. */
  lemma ShownChooseSpecify(corrected: bool, r: Registry, p: Params, shown: Option<string>, aim: CompetenceAim, g: int)
    requires Valid(r) && g == r.goalId
    ensures var r2 := AddGoals(r, p, [aim]);
      && Valid(r2) && g in r2.arena && r2.arena[g].kind == Predefined
      && ShownAfter(corrected, r, p, shown, [ChooseAims([aim])] + [Specify(g)]) ==
         if corrected then CounterText(AddSpecificationToGoal(r2, p, g), p) else CounterText(r2, p)
  {
    ShownChooseOne(corrected, r, p, shown, aim, [Specify(g)]);
    RunChooseOne(r, p, aim, []);
    var r2 := AddGoals(r, p, [aim]);
    ShownSpecifyLast(corrected, r2, p, CounterText(r2, p), g);
  }

  /** "Create a goal, choose one aim, specify it", with the same outcome for
      the displayed counter. `g` is the chosen goal's id. */
  lemma ShownScenario(corrected: bool, r: Registry, p: Params, shown: Option<string>, aim: CompetenceAim, g: int)
    requires Valid(r) && g == r.goalId + 1
    ensures var r2 := AddGoals(AddGoal(r, p, None), p, [aim]);
      && Valid(r2) && g in r2.arena && r2.arena[g].kind == Predefined
      && ShownAfter(corrected, r, p, shown, [CreateGoal] + ([ChooseAims([aim])] + [Specify(g)])) ==
         if corrected then CounterText(AddSpecificationToGoal(r2, p, g), p) else CounterText(r2, p)
  {
    var r1 := AddGoal(r, p, None);
    var t := [ChooseAims([aim])] + [Specify(g)];
    ShownCreate(corrected, r, p, shown, t);
    ShownChooseSpecify(corrected, r1, p, CounterText(r1, p), aim, g);
  }

  /** As written, after "create a goal, choose one aim, specify it" from a
      fresh page the list holds three entries while the counter still
      displays the text for two. */
  lemma StaleCounterAfterSpecify(p: Params, aim: CompetenceAim)
    ensures Valid(Initial)
    ensures var r2 := AddGoals(AddGoal(Initial, p, None), p, [aim]);
      && Valid(r2) && 1 in r2.arena && r2.arena[1].kind == Predefined
      && Count(r2) == 2 && Count(AddSpecificationToGoal(r2, p, 1)) == 3
      && ShownAfter(false, Initial, p, None, [CreateGoal, ChooseAims([aim]), Specify(1)]) == CounterText(r2, p)
      && CounterText(r2, p) != CounterText(AddSpecificationToGoal(r2, p, 1), p)
  {
    InitialValid();
    ShownScenario(false, Initial, p, None, aim, 1);
    assert [CreateGoal, ChooseAims([aim]), Specify(1)] == [CreateGoal] + ([ChooseAims([aim])] + [Specify(1)]);
    var r2 := AddGoals(AddGoal(Initial, p, None), p, [aim]);
    LookupFindsKey(r2, 1);
    CounterTextDistinguishes(r2, AddSpecificationToGoal(r2, p, 1), p);
  }

  /** With the corrected handlers the same scenario displays the text for
      three entries, matching the list. */
  lemma CorrectedCounterAfterSpecify(p: Params, aim: CompetenceAim)
    ensures Valid(Initial)
    ensures var r2 := AddGoals(AddGoal(Initial, p, None), p, [aim]);
      && Valid(r2) && 1 in r2.arena && r2.arena[1].kind == Predefined
      && Count(AddSpecificationToGoal(r2, p, 1)) == 3
      && ShownAfter(true, Initial, p, None, [CreateGoal, ChooseAims([aim]), Specify(1)]) ==
         CounterText(AddSpecificationToGoal(r2, p, 1), p)
  {
    InitialValid();
    ShownScenario(true, Initial, p, None, aim, 1);
    assert [CreateGoal, ChooseAims([aim]), Specify(1)] == [CreateGoal] + ([ChooseAims([aim])] + [Specify(1)]);
    var r2 := AddGoals(AddGoal(Initial, p, None), p, [aim]);
    LookupFindsKey(r2, 1);
  }
}

=== FILE: curriculum_filter.dfy ===
/** The curriculum filter of the goals page: the comma-separated setting is
    split on every comma and each entry is trimmed of white space, so the
    curriculum dialog receives one id per comma-separated field. */
module CurriculumFilter {
  import opened Sequences

  /** The characters `String.prototype.trim` removes: the WhiteSpace and
      LineTerminator code points of section 12.2 and 12.3 of ECMA-262. */
  predicate IsWhitespace(c: char) {
    var n := c as int;
    || n == 0x09 || n == 0x0B || n == 0x0C || n == 0x20 || n == 0xA0 || n == 0xFEFF
    || n == 0x1680 || (0x2000 <= n <= 0x200A) || n == 0x202F || n == 0x205F || n == 0x3000
    || n == 0x0A || n == 0x0D || n == 0x2028 || n == 0x2029
  }

  /** Every character is white space. */
  predicate AllWhite(s: string) {
    forall i :: 0 <= i < |s| ==> IsWhitespace(s[i])
  }

  /** Neither end is white space (the empty string qualifies). */
  predicate Trimmed(s: string) {
    s == [] || (!IsWhitespace(s[0]) && !IsWhitespace(s[|s| - 1]))
  }

  /** The separator the setting uses. */
  const Comma: char := ','

  /** `String.prototype.split` with a one-character separator: the pieces
      between separators, empty ones included, and one piece for the empty
      string. */
  function Split(s: string, sep: char): (parts: seq<string>)
    ensures |parts| == Occurrences(s, sep) + 1
    ensures forall k :: 0 <= k < |parts| ==> sep !in parts[k]
    decreases |s|
  {
    if s == [] then [[]]
    else
      var rest := Split(s[1..], sep);
      if s[0] == sep then [[]] + rest
      else [[s[0]] + rest[0]] + rest[1..]
  }

  /** `Array.prototype.join` with a one-character separator. */
  function Join(parts: seq<string>, sep: char): (s: string)
    requires parts != []
    ensures |parts| == 1 ==> s == parts[0]
    ensures |s| >= |parts| - 1
    decreases |parts|
  {
    if |parts| == 1 then parts[0] else parts[0] + [sep] + Join(parts[1..], sep)
  }

  /** Joining the pieces of a split gives the string back. */
  lemma {:induction false} SplitJoin(s: string, sep: char)
    ensures Join(Split(s, sep), sep) == s
    decreases |s|
  {
    if s != [] {
      var rest := Split(s[1..], sep);
      SplitJoin(s[1..], sep);
      if s[0] == sep {
        assert Split(s, sep)[1..] == rest;
      } else {
        var parts := Split(s, sep);
        if |rest| == 1 {
          assert parts == [[s[0]] + rest[0]];
        } else {
          assert parts[1..] == rest[1..];
          assert Join(rest, sep) == rest[0] + [sep] + Join(rest[1..], sep);
        }
      }
    }
  }

  /** Splitting a join of separator-free pieces gives the pieces back. */
  lemma {:induction false} JoinSplit(parts: seq<string>, sep: char)
    requires parts != []
    requires forall k :: 0 <= k < |parts| ==> sep !in parts[k]
    ensures Split(Join(parts, sep), sep) == parts
    decreases |parts|
  {
    if |parts| == 1 {
      SplitPlain(parts[0], [], sep);
      assert parts[0] + [] == parts[0];
    } else {
      JoinSplit(parts[1..], sep);
      var tail := Join(parts[1..], sep);
      SplitAfterSep(tail, sep);
      SplitPlain(parts[0], [sep] + tail, sep);
      var rest := Split([sep] + tail, sep);
      assert rest[0] == [] && rest[1..] == parts[1..];
      assert parts[0] + rest[0] == parts[0];
      assert parts[0] + [sep] + tail == parts[0] + ([sep] + tail);
      assert [parts[0]] + parts[1..] == parts;
    }
  }

  /** A separator in front adds an empty first piece. */
  lemma SplitAfterSep(s: string, sep: char)
    ensures Split([sep] + s, sep) == [[]] + Split(s, sep)
  {
    assert ([sep] + s)[1..] == s;
  }

  /** A separator-free prefix is glued onto the first piece of what follows,
      and leaves the other pieces alone. */
  lemma {:induction false} SplitPlain(w: string, s: string, sep: char)
    requires sep !in w
    ensures var rest := Split(s, sep);
      Split(w + s, sep) == [w + rest[0]] + rest[1..]
    decreases |w|
  {
    if w == [] {
      assert w + s == s;
      var rest := Split(s, sep);
      assert w + rest[0] == rest[0];
      assert [rest[0]] + rest[1..] == rest;
    } else {
      SplitPlain(w[1..], s, sep);
      assert (w + s)[1..] == w[1..] + s;
      assert [w[0]] + (w[1..] + Split(s, sep)[0]) == w + Split(s, sep)[0];
    }
  }

  /** `trimStart`: drops the leading white space. */
  function TrimStart(s: string): (t: string)
    ensures |t| <= |s| && t == s[|s| - |t|..]
    ensures forall i :: 0 <= i < |s| - |t| ==> IsWhitespace(s[i])
    ensures t != [] ==> !IsWhitespace(t[0])
    decreases |s|
  {
    if s != [] && IsWhitespace(s[0]) then TrimStart(s[1..]) else s
  }

  /** `trimEnd`: drops the trailing white space. */
  function TrimEnd(s: string): (t: string)
    ensures |t| <= |s| && t == s[..|t|]
    ensures forall i :: |t| <= i < |s| ==> IsWhitespace(s[i])
    ensures t != [] ==> !IsWhitespace(t[|t| - 1])
    decreases |s|
  {
    if s != [] && IsWhitespace(s[|s| - 1]) then TrimEnd(s[..|s| - 1]) else s
  }

  /** `String.prototype.trim`. */
  function Trim(s: string): (t: string)
    ensures Trimmed(t)
    ensures |t| <= |s|
    ensures forall c :: c in t ==> c in s
  {
    var m := TrimStart(s);
    var t := TrimEnd(m);
    assert forall c :: c in t ==> c in m;
    t
  }

  /** White space in front of a piece that does not start with white space
      is all that trimStart takes. */
  lemma {:induction false} TrimStartOf(a: string, m: string)
    requires AllWhite(a)
    requires m == [] || !IsWhitespace(m[0])
    ensures TrimStart(a + m) == m
    decreases |a|
  {
    if a != [] {
      assert (a + m)[1..] == a[1..] + m;
      TrimStartOf(a[1..], m);
    } else {
      assert a + m == m;
    }
  }

  /** White space after a piece that does not end with white space is all
      that trimEnd takes. */
  lemma {:induction false} TrimEndOf(m: string, b: string)
    requires AllWhite(b)
    requires m == [] || !IsWhitespace(m[|m| - 1])
    ensures TrimEnd(m + b) == m
    decreases |b|
  {
    if b != [] {
      var b' := b[..|b| - 1];
      assert (m + b)[..|m + b| - 1] == m + b';
      TrimEndOf(m, b');
    } else {
      assert m + b == m;
    }
  }

  /** Trim is determined by its characterisation: a trimmed core with white
      space on both sides trims to that core. */
  lemma TrimUnique(a: string, t: string, b: string)
    requires AllWhite(a) && AllWhite(b) && Trimmed(t)
    ensures Trim(a + t + b) == t
  {
    if t != [] {
      assert a + t + b == a + (t + b);
      TrimStartOf(a, t + b);
      TrimEndOf(t, b);
    } else {
      assert a + t + b == a + b;
      assert AllWhite(a + b) by {
        forall i | 0 <= i < |a + b| ensures IsWhitespace((a + b)[i]) {
          if i < |a| { assert (a + b)[i] == a[i]; } else { assert (a + b)[i] == b[i - |a|]; }
        }
      }
      TrimStartOf(a + b, []);
      assert a + b + [] == a + b;
    }
  }

  /** Trimming twice is trimming once. */
  lemma TrimIdempotent(s: string)
    ensures Trim(Trim(s)) == Trim(s)
  {
    TrimmedStays(Trim(s));
  }

  /** getFilteredIdList: no ids when the setting is missing or empty;
      otherwise one trimmed id per comma-separated field, empty fields kept. */
  function GetFilteredIdList(setting: Option<string>): (ids: seq<string>)
    ensures setting.None? || setting.value == [] ==> ids == []
    ensures setting.Some? && setting.value != [] ==> |ids| == Occurrences(setting.value, Comma) + 1
    ensures forall k :: 0 <= k < |ids| ==> Trimmed(ids[k]) && Comma !in ids[k]
  {
    if setting.None? || setting.value == [] then []
    else
      var fields := Split(setting.value, Comma);
      seq(|fields|, k requires 0 <= k < |fields| => Trim(fields[k]))
  }

  /** The setting written as fields joined by commas yields the trimmed fields. */
  lemma FilterOfFields(fields: seq<string>)
    requires fields != [] && Join(fields, Comma) != []
    requires forall k :: 0 <= k < |fields| ==> Comma !in fields[k]
    ensures GetFilteredIdList(Some(Join(fields, Comma))) == seq(|fields|, k requires 0 <= k < |fields| => Trim(fields[k]))
  {
    JoinSplit(fields, Comma);
  }

  /** Trimmed comma-free ids padded with any white space round-trip through
      a non-empty setting. */
  lemma FilterRoundTrip(ids: seq<string>, lead: seq<string>, trail: seq<string>)
    requires ids != [] && |lead| == |ids| && |trail| == |ids|
    requires forall k :: 0 <= k < |ids| ==> Trimmed(ids[k]) && Comma !in ids[k]
    requires forall k :: 0 <= k < |ids| ==> AllWhite(lead[k]) && AllWhite(trail[k])
    requires var fields := seq(|ids|, k requires 0 <= k < |ids| => lead[k] + ids[k] + trail[k]);
      Join(fields, Comma) != []
    ensures var fields := seq(|ids|, k requires 0 <= k < |ids| => lead[k] + ids[k] + trail[k]);
      GetFilteredIdList(Some(Join(fields, Comma))) == ids
  {
    var fields := seq(|ids|, k requires 0 <= k < |ids| => lead[k] + ids[k] + trail[k]);
    forall k | 0 <= k < |ids| ensures Comma !in fields[k] && Trim(fields[k]) == ids[k] {
      TrimUnique(lead[k], ids[k], trail[k]);
      assert !IsWhitespace(Comma);
      forall i | 0 <= i < |fields[k]| ensures fields[k][i] != Comma {
        var f := fields[k];
        if i < |lead[k]| {
          assert f[i] == lead[k][i];
        } else if i < |lead[k]| + |ids[k]| {
          assert f[i] == ids[k][i - |lead[k]|];
        } else {
          assert f[i] == trail[k][i - |lead[k]| - |ids[k]|];
        }
      }
    }
    FilterOfFields(fields);
  }

  /** Joining three pieces puts a separator between each pair. */
  lemma JoinThree(a: string, m: string, b: string, sep: char)
    ensures Join([a, m, b], sep) == a + [sep] + m + [sep] + b
  {
    var parts := [a, m, b];
    assert parts[1..] == [m, b] && parts[1..][1..] == [b];
    assert Join([b], sep) == b;
    assert Join([m, b], sep) == m + [sep] + b;
  }

  /** The setting "a,m,b" yields the three trimmed fields. */
  lemma FilterOfThreeFields(a: string, m: string, b: string)
    requires Comma !in a && Comma !in m && Comma !in b
    ensures GetFilteredIdList(Some(Join([a, m, b], Comma))) == [Trim(a), Trim(m), Trim(b)]
  {
    var fields := [a, m, b];
    FilterOfFields(fields);
    var got := seq(|fields|, k requires 0 <= k < |fields| => Trim(fields[k]));
    assert got[0] == Trim(a) && got[1] == Trim(m) && got[2] == Trim(b);
  }

  /** A trimmed string is its own trim. */
  lemma TrimmedStays(t: string)
    requires Trimmed(t)
    ensures Trim(t) == t
  {
    var e: string := [];
    TrimUnique(e, t, e);
    assert e + t + e == t;
  }

  /** An empty field between two commas stays as an empty id. */
  lemma EmptyFieldKept(a: string, b: string)
    requires Trimmed(a) && Trimmed(b) && Comma !in a && Comma !in b
    ensures GetFilteredIdList(Some(a + [Comma, Comma] + b)) == [a, [], b]
  {
    var e: string := [];
    JoinThree(a, e, b, Comma);
    assert a + [Comma] + e + [Comma] + b == a + [Comma, Comma] + b;
    FilterOfThreeFields(a, e, b);
    TrimmedStays(a);
    TrimmedStays(e);
    TrimmedStays(b);
  }
}

=== FILE: goal_instance.dfy ===
/** One entry of the goals page: a user-written goal, a goal chosen from a
    curriculum, or a specification attached to a chosen goal. Records live in
    an arena keyed by their unique id, so the parent/child links are plain ids
    instead of object references. */
module GoalInstance {
  import opened Sequences

  /** The three goal states of the goals page. */
  datatype Kind = UserCreated | Predefined | PredefinedSpecification

  /** The numeric constant the page uses for each state. */
  function KindCode(k: Kind): (code: int)
    ensures 0 <= code <= 2
  {
    match k
    case UserCreated => 0
    case Predefined => 1
    case PredefinedSpecification => 2
  }

  /** The "unset" answer a specified goal is reset to. */
  const UnsetAnswer: int := -1

  /** A goal record. `specs` lists the ids of a predefined goal's
      specifications in the order they were added; `parent` is the id of the
      goal a specification belongs to. */
  datatype Goal = Goal(
    uniqueId: int,
    kind: Kind,
    text: string,
    typeDescription: string,
    answer: int,
    specs: seq<int>,
    parent: Option<int>)

  /** A freshly constructed record: no answer yet, no specifications, no parent. */
  function NewGoal(text: string, uniqueId: int, kind: Kind, typeDescription: string): (g: Goal)
    ensures g.uniqueId == uniqueId && g.kind == kind
    ensures g.text == text && g.typeDescription == typeDescription
    ensures g.answer == UnsetAnswer && g.specs == [] && g.parent == None
  {
    Goal(uniqueId, kind, text, typeDescription, UnsetAnswer, [], None)
  }

  /** The specification record a predefined goal creates for itself. */
  function NewSpecification(parent: Goal, text: string, uniqueId: int, typeDescription: string): (s: Goal)
    ensures s.uniqueId == uniqueId && s.kind == PredefinedSpecification
    ensures s.text == text && s.typeDescription == typeDescription
    ensures s.specs == [] && s.parent == Some(parent.uniqueId)
  {
    NewGoal(text, uniqueId, PredefinedSpecification, typeDescription).(parent := Some(parent.uniqueId))
  }

  /** The parent side of adding a specification: its id goes to the end of the list. */
  function AddSpecificationChild(g: Goal, specId: int): (g': Goal)
    ensures |g'.specs| == |g.specs| + 1 && g'.specs[..|g.specs|] == g.specs
    ensures g'.specs[|g.specs|] == specId
    ensures g' == g.(specs := g'.specs)
  {
    g.(specs := g.specs + [specId])
  }

  /** The parent side of removing a specification (indexOf, then splice). */
  function RemoveSpecificationChild(g: Goal, specId: int): (g': Goal)
    ensures g' == g.(specs := g'.specs)
    ensures specId in g.specs ==> |g'.specs| == |g.specs| - 1
    ensures specId !in g.specs ==> g' == g
  {
    g.(specs := RemoveFirst(g.specs, specId))
  }
}

=== FILE: goals_counter.dfy ===
/** The goals counter above the list: hidden while the list is empty,
    otherwise the number of entries followed by the "goals added" label. */
module GoalsCounter {
  import opened Sequences
  import opened GoalsPage

  predicate IsDigit(c: char) {
    '0' <= c <= '9'
  }

  function DigitChar(d: nat): (c: char)
    requires d < 10
    ensures IsDigit(c) && (c as int) - ('0' as int) == d
  {
    (('0' as int) + d) as char
  }

  function DigitValue(c: char): (d: nat)
    requires IsDigit(c)
    ensures d < 10 && DigitChar(d) == c
  {
    (c as int) - ('0' as int)
  }

  /** The decimal text of a non-negative integer, as number-to-string
      conversion writes it: digits only, no leading zero except for 0 itself. */
  function Decimal(n: nat): (s: string)
    ensures s != [] && forall i :: 0 <= i < |s| ==> IsDigit(s[i])
    ensures |s| > 1 ==> s[0] != '0'
    decreases n
  {
    if n < 10 then [DigitChar(n)] else Decimal(n / 10) + [DigitChar(n % 10)]
  }

  /** Reads a string of digits as a number. */
  function ParseDecimal(s: string): (n: nat)
    requires forall i :: 0 <= i < |s| ==> IsDigit(s[i])
    decreases |s|
  {
    if s == [] then 0 else ParseDecimal(s[..|s| - 1]) * 10 + DigitValue(s[|s| - 1])
  }

  /** The decimal text reads back as the number it was written from. */
  lemma {:induction false} DecimalRoundTrip(n: nat)
    ensures ParseDecimal(Decimal(n)) == n
    decreases n
  {
    var s := Decimal(n);
    if n < 10 {
      assert s[..0] == [];
    } else {
      DecimalRoundTrip(n / 10);
      assert s[..|s| - 1] == Decimal(n / 10);
    }
  }

  /** Different counts give different decimal texts. */
  lemma DecimalInjective(m: nat, n: nat)
    ensures Decimal(m) == Decimal(n) ==> m == n
  {
    DecimalRoundTrip(m);
    DecimalRoundTrip(n);
  }

  /** updateGoalsCounter: `None` while nothing is listed; otherwise the text
      shown, the count in decimal, one space, then the label. */
  function CounterText(r: Registry, p: Params): (text: Option<string>)
    ensures text.None? <==> r.goalList == []
    ensures text.Some? ==>
      var t := text.value; var added := p.goalsAddedText;
      && |t| > |added| + 1 && t[|t| - |added|..] == added && t[|t| - |added| - 1] == ' '
      && (forall i :: 0 <= i < |t| - |added| - 1 ==> IsDigit(t[i]))
      && ParseDecimal(t[..|t| - |added| - 1]) == Count(r)
      && (|t| - |added| - 1 > 1 ==> t[0] != '0')
  {
    if Count(r) == 0 then None
    else
      var digits := Decimal(Count(r));
      DecimalRoundTrip(Count(r));
      var t := digits + [' '] + p.goalsAddedText;
      assert t[..|t| - |p.goalsAddedText| - 1] == digits;
      Some(t)
  }

  /** Lists of different lengths get different counter texts, so the text
      tells which length it was computed from. */
  lemma CounterTextDistinguishes(r: Registry, r': Registry, p: Params)
    requires Count(r) != Count(r')
    ensures CounterText(r, p) != CounterText(r', p)
  {
  }

  /** Adding a goal shows the counter, whatever was listed before. */
  lemma CounterShownAfterAdd(r: Registry, p: Params, aim: Option<CompetenceAim>)
    ensures CounterText(AddGoal(r, p, aim), p).Some?
  {
    assert |AddGoal(r, p, aim).goalList| == Count(r) + 1;
  }
}

=== FILE: goals_page.dfy ===
/** The goal registry of the goals page: the ordered goal list, the id
    counter, and the operations that add goals and specifications, look goals
    up and remove them with their specifications. */
module GoalsPage {
  import opened Sequences
  import opened GoalInstance

  /** The display strings the registry reads from the page's behaviour settings. */
  datatype Params = Params(
    defineGoalPlaceholder: string,
    definedGoalLabel: string,
    specifyGoalText: string,
    goalsAddedText: string)

  /** An entry chosen in the curriculum browser: the aim's text and the
      curriculum it belongs to. */
  datatype CompetenceAim = CompetenceAim(value: string, curriculumValue: string)

  /** Registry state. `goalList` holds the ids of the goal list in push
      order; `arena` holds the record of every id; `goalId` is the next id to
      hand out. */
  datatype Registry = Registry(goalList: seq<int>, arena: map<int, Goal>, goalId: nat)

  /** The state right after the page is attached: an empty list and counter 0. */
  const Initial: Registry := Registry([], map[], 0)

  /** Result of a lookup by id; `NotFound` stands for the page's -1 sentinel. */
  datatype Lookup = Found(goal: Goal) | NotFound

  // ---------------------------------------------------------------------
  // The registry invariant
  // ---------------------------------------------------------------------

  predicate ListInArena(r: Registry) {
    forall i :: 0 <= i < |r.goalList| ==> r.goalList[i] in r.arena
  }

  predicate ArenaInList(r: Registry) {
    forall id :: id in r.arena ==> id in r.goalList
  }

  predicate IdsBelowCounter(r: Registry) {
    forall i :: 0 <= i < |r.goalList| ==> 0 <= r.goalList[i] < r.goalId
  }

  predicate KeyedById(r: Registry) {
    forall id :: id in r.arena ==> r.arena[id].uniqueId == id
  }

  /** `s` is a specification record whose parent is `p`. */
  predicate SpecOf(arena: map<int, Goal>, s: int, p: int) {
    s in arena && arena[s].kind == PredefinedSpecification && arena[s].parent == Some(p)
  }

  /** The parent/child links of record `id` are consistent: a user goal has
      neither; a predefined goal lists distinct specifications that point back
      to it; a specification points to a predefined goal that lists it. */
  predicate Linked(arena: map<int, Goal>, id: int)
    requires id in arena
  {
    var g := arena[id];
    && (g.kind == UserCreated ==> g.specs == [] && g.parent == None)
    && (g.kind == Predefined ==>
         && g.parent == None
         && NoDup(g.specs)
         && forall k :: 0 <= k < |g.specs| ==> SpecOf(arena, g.specs[k], id))
    && (g.kind == PredefinedSpecification ==>
         && g.specs == []
         && g.parent.Some?
         && g.parent.value in arena
         && arena[g.parent.value].kind == Predefined
         && id in arena[g.parent.value].specs)
  }

  predicate AllLinked(arena: map<int, Goal>) {
    forall id :: id in arena ==> Linked(arena, id)
  }

  /** The registry invariant: the list and the arena hold the same ids, ids
      increase strictly along the list and stay below the counter, every
      record carries its own key, and all parent/child links are consistent. */
  predicate Valid(r: Registry) {
    && ListInArena(r)
    && ArenaInList(r)
    && StrictlyIncreasing(r.goalList)
    && IdsBelowCounter(r)
    && KeyedById(r)
    && AllLinked(r.arena)
  }

  /** The goal list as the page holds it: the records, in list order. */
  function Records(r: Registry): (rs: seq<Goal>)
    requires ListInArena(r)
    ensures |rs| == |r.goalList|
    ensures forall i :: 0 <= i < |rs| ==> rs[i] == r.arena[r.goalList[i]]
  {
    seq(|r.goalList|, i requires 0 <= i < |r.goalList| => r.arena[r.goalList[i]])
  }

  /** The length of the goal list: every entry, specifications included. */
  function Count(r: Registry): (n: nat)
    ensures ListInArena(r) ==> n == |Records(r)|
  {
    |r.goalList|
  }

  lemma InitialValid()
    ensures Valid(Initial) && Count(Initial) == 0
  {
  }

  // ---------------------------------------------------------------------
  // Lookup
  // ---------------------------------------------------------------------

  /** Scans `rs` the way a `forEach` that overwrites its answer does: the
      LAST record with the id wins. */
  function LastMatch(rs: seq<Goal>, id: int): (res: Lookup)
    ensures res.Found? ==>
      && res.goal.uniqueId == id
      && exists k :: 0 <= k < |rs| && rs[k] == res.goal && forall j :: k < j < |rs| ==> rs[j].uniqueId != id
    ensures res.NotFound? ==> forall k :: 0 <= k < |rs| ==> rs[k].uniqueId != id
  {
    if rs == [] then NotFound
    else if rs[|rs| - 1].uniqueId == id then Found(rs[|rs| - 1])
    else
      var res := LastMatch(rs[..|rs| - 1], id);
      assert forall k :: 0 <= k < |rs| - 1 ==> rs[..|rs| - 1][k] == rs[k];
      res
  }

  /** Returns the goal whose unique id is `id`, or the not-found sentinel. */
  function GetGoalInstanceFromUniqueId(r: Registry, id: int): (res: Lookup)
    requires ListInArena(r)
    ensures res.Found? ==> res.goal.uniqueId == id && res.goal in Records(r)
    ensures res.NotFound? <==> forall i :: 0 <= i < |r.goalList| ==> r.arena[r.goalList[i]].uniqueId != id
  {
    LastMatch(Records(r), id)
  }

  /** The page's own loop: walk the goal list front to back and remember
      each record whose id matches. */
  method FindGoal(r: Registry, id: int) returns (found: Lookup)
    requires ListInArena(r)
    ensures found == GetGoalInstanceFromUniqueId(r, id)
  {
    var rs := Records(r);
    found := NotFound;
    var i := 0;
    while i < |rs|
      invariant 0 <= i <= |rs|
      invariant found == LastMatch(rs[..i], id)
    {
      assert rs[..i + 1][..i] == rs[..i];
      if rs[i].uniqueId == id {
        found := Found(rs[i]);
      }
      i := i + 1;
    }
    assert rs[..|rs|] == rs;
  }

  /** In a valid registry the lookup finds exactly the record stored under
      `id`, and reports not-found precisely when no record has that id. */
  lemma LookupFindsKey(r: Registry, id: int)
    requires Valid(r)
    ensures GetGoalInstanceFromUniqueId(r, id) == (if id in r.arena then Found(r.arena[id]) else NotFound)
  {
    var res := GetGoalInstanceFromUniqueId(r, id);
    if id in r.arena {
      assert id in r.goalList;
      var i :| 0 <= i < |r.goalList| && r.goalList[i] == id;
      assert r.arena[r.goalList[i]].uniqueId == id;
      assert res.Found?;
      var k :| 0 <= k < |r.goalList| && Records(r)[k] == res.goal;
      assert r.goalList[k] == id;
    } else {
      forall i | 0 <= i < |r.goalList| ensures r.arena[r.goalList[i]].uniqueId != id {
        assert r.goalList[i] in r.arena;
      }
    }
  }

  // ---------------------------------------------------------------------
  // Adding goals and specifications
  // ---------------------------------------------------------------------

  /** The record `addGoal` builds: a user goal with the placeholder text and
      the user-defined label, or a predefined goal carrying the aim's text and
      its curriculum's name. */
  function GoalFor(p: Params, aim: Option<CompetenceAim>, id: int): (g: Goal)
    ensures g.uniqueId == id && g.specs == [] && g.parent == None
    ensures aim.None? ==> g.kind == UserCreated && g.text == p.defineGoalPlaceholder && g.typeDescription == p.definedGoalLabel
    ensures aim.Some? ==> g.kind == Predefined && g.text == aim.value.value && g.typeDescription == aim.value.curriculumValue
  {
    match aim
    case None => NewGoal(p.defineGoalPlaceholder, id, UserCreated, p.definedGoalLabel)
    case Some(a) => NewGoal(a.value, id, Predefined, a.curriculumValue)
  }

  /** `addGoal`: the new record takes the current counter as its id, is
      pushed onto the goal list, and the counter moves on by one. */
  function AddGoal(r: Registry, p: Params, aim: Option<CompetenceAim>): (r': Registry)
    ensures Count(r') == Count(r) + 1 && r'.goalId == r.goalId + 1
    ensures r'.goalList[..|r.goalList|] == r.goalList && r'.goalList[|r.goalList|] == r.goalId
  {
    Registry(r.goalList + [r.goalId], r.arena[r.goalId := GoalFor(p, aim, r.goalId)], r.goalId + 1)
  }

  /** The counter is above every id in a valid registry, so it is never in use. */
  lemma CounterIsFresh(r: Registry)
    requires Valid(r)
    ensures r.goalId !in r.arena && r.goalId !in r.goalList
  {
    forall i | 0 <= i < |r.goalList| ensures r.goalList[i] != r.goalId {
      assert r.goalList[i] < r.goalId;
    }
  }

  /** Records that `arena'` keeps unchanged keep their links. */
  lemma LinkedFrame(arena: map<int, Goal>, arena': map<int, Goal>, id: int)
    requires id in arena && Linked(arena, id)
    requires forall x :: x in arena ==> x in arena' && arena'[x] == arena[x]
    ensures id in arena' && Linked(arena', id)
  {
    var g := arena[id];
    if g.kind == Predefined {
      forall k | 0 <= k < |g.specs| ensures SpecOf(arena', g.specs[k], id) {
        assert SpecOf(arena, g.specs[k], id);
      }
    } else if g.kind == PredefinedSpecification {
      var q := g.parent.value;
      assert q in arena;
      assert q in arena' && arena'[q] == arena[q];
    }
  }

  /** `addGoal` appends exactly one record, built as `GoalFor` says, to the
      goal list; all earlier records are untouched and the lookup of the new
      id returns the new record. */
  lemma AddGoalAppends(r: Registry, p: Params, aim: Option<CompetenceAim>)
    requires Valid(r)
    ensures ListInArena(AddGoal(r, p, aim))
    ensures Records(AddGoal(r, p, aim)) == Records(r) + [GoalFor(p, aim, r.goalId)]
    ensures GetGoalInstanceFromUniqueId(AddGoal(r, p, aim), r.goalId) == Found(GoalFor(p, aim, r.goalId))
  {
    var r' := AddGoal(r, p, aim);
    CounterIsFresh(r);
    AddGoalPreservesValid(r, p, aim);
    assert Records(r') == Records(r) + [GoalFor(p, aim, r.goalId)] by {
      forall i | 0 <= i < |r.goalList| ensures r'.goalList[i] == r.goalList[i] && r'.arena[r.goalList[i]] == r.arena[r.goalList[i]] {
        assert r.goalList[i] != r.goalId;
      }
    }
    LookupFindsKey(r', r.goalId);
  }

  /** Pushing the counter's id onto the list, keying a record under it and
      moving the counter on keeps the list and the arena in step. */
  lemma PushKeepsShape(r: Registry, r': Registry)
    requires ListInArena(r) && ArenaInList(r) && StrictlyIncreasing(r.goalList) && IdsBelowCounter(r)
    requires r'.goalList == r.goalList + [r.goalId] && r'.goalId == r.goalId + 1
    requires r'.arena.Keys == r.arena.Keys + {r.goalId}
    ensures ListInArena(r') && ArenaInList(r') && StrictlyIncreasing(r'.goalList) && IdsBelowCounter(r')
  {
    var n := r.goalId;
    forall i, j | 0 <= i < j < |r'.goalList| ensures r'.goalList[i] < r'.goalList[j] {
      if j == |r.goalList| {
        assert r'.goalList[i] == r.goalList[i];
      } else {
        assert r'.goalList[i] == r.goalList[i] && r'.goalList[j] == r.goalList[j];
      }
    }
    forall x | x in r'.arena ensures x in r'.goalList {
      if x != n {
        assert x in r.goalList;
        var i :| 0 <= i < |r.goalList| && r.goalList[i] == x;
        assert r'.goalList[i] == x;
      } else {
        assert r'.goalList[|r.goalList|] == n;
      }
    }
    forall i | 0 <= i < |r'.goalList| ensures r'.goalList[i] in r'.arena && 0 <= r'.goalList[i] < r'.goalId {
      if i < |r.goalList| {
        assert r'.goalList[i] == r.goalList[i];
      }
    }
  }

  lemma AddGoalPreservesValid(r: Registry, p: Params, aim: Option<CompetenceAim>)
    requires Valid(r)
    ensures Valid(AddGoal(r, p, aim))
  {
    var r' := AddGoal(r, p, aim);
    var n := r.goalId;
    CounterIsFresh(r);
    assert forall x :: x in r.arena ==> x in r'.arena && r'.arena[x] == r.arena[x];
    forall x | x in r'.arena ensures Linked(r'.arena, x) {
      if x != n {
        LinkedFrame(r.arena, r'.arena, x);
      }
    }
    PushKeepsShape(r, r');
  }

  /** `addSpecificationToGoal` on the predefined goal `id`: that goal's answer
      is reset to unset, a specification record with the current counter as
      its id is pushed onto the goal list, its id is appended to the goal's
      specification list, and the counter moves on by one. The Specify
      button exists only on predefined goals, so that kind is required. */
  function AddSpecificationToGoal(r: Registry, p: Params, id: int): (r': Registry)
    requires Valid(r)
    requires GetGoalInstanceFromUniqueId(r, id).Found?
    requires GetGoalInstanceFromUniqueId(r, id).goal.kind == Predefined
    ensures Count(r') == Count(r) + 1 && r'.goalId == r.goalId + 1
    ensures r'.goalList[..|r.goalList|] == r.goalList && r'.goalList[|r.goalList|] == r.goalId
  {
    LookupFindsKey(r, id);
    var goal := r.arena[id].(answer := UnsetAnswer);
    var spec := NewSpecification(goal, p.defineGoalPlaceholder, r.goalId, p.specifyGoalText);
    Registry(r.goalList + [r.goalId], r.arena[id := AddSpecificationChild(goal, r.goalId)][r.goalId := spec], r.goalId + 1)
  }

  /** What `addSpecificationToGoal` does to the records: the parent keeps
      everything but its answer (now unset) and its specification list (one
      more id, the new one, at the end); the new record is a specification of
      that parent; every other record is unchanged. */
  lemma AddSpecificationEffect(r: Registry, p: Params, id: int)
    requires Valid(r)
    requires GetGoalInstanceFromUniqueId(r, id).Found?
    requires GetGoalInstanceFromUniqueId(r, id).goal.kind == Predefined
    ensures var r' := AddSpecificationToGoal(r, p, id);
      && id in r.arena && id in r'.arena && r.goalId in r'.arena
      && r'.arena[id] == r.arena[id].(answer := UnsetAnswer, specs := r.arena[id].specs + [r.goalId])
      && r'.arena[r.goalId] == NewGoal(p.defineGoalPlaceholder, r.goalId, PredefinedSpecification, p.specifyGoalText).(parent := Some(id))
      && |r'.arena[id].specs| == |r.arena[id].specs| + 1
      && (forall x :: x in r.arena && x != id ==> x in r'.arena && r'.arena[x] == r.arena[x])
      && r'.arena.Keys == r.arena.Keys + {r.goalId}
  {
    LookupFindsKey(r, id);
    CounterIsFresh(r);
  }

  /** The links of the arena after a specification `n` is added to the
      predefined goal `id`. */
  lemma AddSpecificationKeepsLinks(A: map<int, Goal>, A': map<int, Goal>, id: int, n: int)
    requires AllLinked(A)
    requires id in A && A[id].kind == Predefined && n !in A
    requires n in A' && A'[n].kind == PredefinedSpecification && A'[n].specs == [] && A'[n].parent == Some(id)
    requires id in A' && A'[id] == A[id].(answer := A'[id].answer, specs := A[id].specs + [n])
    requires forall x :: x in A && x != id ==> x in A' && A'[x] == A[x]
    requires A'.Keys == A.Keys + {n}
    ensures AllLinked(A')
  {
    forall x | x in A' ensures Linked(A', x) {
      if x == n {
        assert n == A'[id].specs[|A[id].specs|];
      } else if x == id {
        AddSpecificationKeepsParentLinks(A, A', id, n);
      } else {
        assert Linked(A, x);
        var g := A[x];
        if g.kind == Predefined {
          forall k | 0 <= k < |g.specs| ensures SpecOf(A', g.specs[k], x) {
            assert SpecOf(A, g.specs[k], x);
          }
        } else if g.kind == PredefinedSpecification {
          var q := g.parent.value;
          if q == id {
            assert x in A'[id].specs;
          } else {
            assert A'[q] == A[q];
          }
        }
      }
    }
  }

  lemma AddSpecificationKeepsParentLinks(A: map<int, Goal>, A': map<int, Goal>, id: int, n: int)
    requires id in A && Linked(A, id) && A[id].kind == Predefined && n !in A
    requires n in A' && A'[n].kind == PredefinedSpecification && A'[n].parent == Some(id)
    requires id in A' && A'[id] == A[id].(answer := A'[id].answer, specs := A[id].specs + [n])
    requires forall x :: x in A && x != id ==> x in A' && A'[x] == A[x]
    ensures Linked(A', id)
  {
    var specs, specs' := A[id].specs, A'[id].specs;
    assert n !in specs by {
      forall k | 0 <= k < |specs| ensures specs[k] != n {
        assert SpecOf(A, specs[k], id);
      }
    }
    forall k | 0 <= k < |specs'| ensures SpecOf(A', specs'[k], id) {
      if k < |specs| {
        assert specs'[k] == specs[k];
        assert SpecOf(A, specs[k], id);
      }
    }
    forall i, j | 0 <= i < j < |specs'| ensures specs'[i] != specs'[j] {
      if j == |specs| {
        assert specs'[i] == specs[i];
        assert specs'[i] in specs;
      } else {
        assert specs'[i] == specs[i] && specs'[j] == specs[j];
      }
    }
  }

  lemma AddSpecificationPreservesValid(r: Registry, p: Params, id: int)
    requires Valid(r)
    requires GetGoalInstanceFromUniqueId(r, id).Found?
    requires GetGoalInstanceFromUniqueId(r, id).goal.kind == Predefined
    ensures Valid(AddSpecificationToGoal(r, p, id))
  {
    var r' := AddSpecificationToGoal(r, p, id);
    AddSpecificationEffect(r, p, id);
    CounterIsFresh(r);
    AddSpecificationKeepsLinks(r.arena, r'.arena, id, r.goalId);
    assert r'.goalList == r.goalList + [r.goalId];
    PushKeepsShape(r, r');
  }

  // ---------------------------------------------------------------------
  // Removing goals
  // ---------------------------------------------------------------------

  /** `removeSpecification`: when the target is a specification, its id is
      taken off its parent's specification list; otherwise nothing happens. */
  function RemoveSpecification(r: Registry, g: Goal): (r': Registry)
    requires g.kind == PredefinedSpecification ==> g.parent.Some? && g.parent.value in r.arena
    ensures r'.goalList == r.goalList && r'.goalId == r.goalId && r'.arena.Keys == r.arena.Keys
    ensures g.kind != PredefinedSpecification ==> r' == r
  {
    if g.kind == PredefinedSpecification then
      var parent := g.parent.value;
      r.(arena := r.arena[parent := RemoveSpecificationChild(r.arena[parent], g.uniqueId)])
    else r
  }

  /** `removeChildSpecifications`: when the target is a predefined goal with
      specifications, each of them is taken off the goal list (last match,
      then splice); otherwise nothing happens. */
  function RemoveChildSpecifications(r: Registry, g: Goal): (r': Registry)
    ensures r'.goalId == r.goalId
    ensures forall x :: x in r'.goalList ==> x in r.goalList
    ensures g.kind != Predefined ==> r' == r
  {
    if g.kind == Predefined && |g.specs| > 0 then
      r.(goalList := RemoveEachLast(r.goalList, g.specs), arena := r.arena - Elems(g.specs))
    else r
  }

  /** `removeGoal`: look the id up, detach a specification from its parent,
      drop a predefined goal's specifications, then drop the goal itself
      (indexOf, then splice). The lookup must succeed: on the -1 sentinel the
      page would fail calling a method on a number. */
  function RemoveGoal(r: Registry, id: int): (r': Registry)
    requires Valid(r)
    requires GetGoalInstanceFromUniqueId(r, id).Found?
    ensures r'.goalId == r.goalId
    ensures forall x :: x in r'.goalList ==> x in r.goalList
  {
    LookupFindsKey(r, id);
    var g := GetGoalInstanceFromUniqueId(r, id).goal;
    var r1 := RemoveSpecification(r, g);
    var r2 := RemoveChildSpecifications(r1, g);
    r2.(goalList := RemoveFirst(r2.goalList, g.uniqueId), arena := r2.arena - {g.uniqueId})
  }

  /** The ids `removeGoal(id)` is meant to remove: the goal itself and, for a
      predefined goal, every specification it lists. */
  function RemovedIds(r: Registry, id: int): set<int>
    requires id in r.arena
  {
    {id} + (if r.arena[id].kind == Predefined then Elems(r.arena[id].specs) else {})
  }

  /** `removeGoal` is the three steps applied to the record stored under `id`. */
  lemma RemoveGoalSteps(r: Registry, id: int)
    requires Valid(r)
    requires GetGoalInstanceFromUniqueId(r, id).Found?
    ensures id in r.arena
    ensures var g := r.arena[id]; var r2 := RemoveChildSpecifications(RemoveSpecification(r, g), g);
      RemoveGoal(r, id) == r2.(goalList := RemoveFirst(r2.goalList, id), arena := r2.arena - {id})
  {
    LookupFindsKey(r, id);
  }

  lemma RemoveGoalList(r: Registry, id: int)
    requires Valid(r)
    requires GetGoalInstanceFromUniqueId(r, id).Found?
    ensures id in r.arena
    ensures RemoveGoal(r, id).goalList == Without(r.goalList, RemovedIds(r, id))
  {
    RemoveGoalSteps(r, id);
    var g := r.arena[id];
    var L := r.goalList;
    var r2 := RemoveChildSpecifications(RemoveSpecification(r, g), g);
    IncreasingNoDup(L);
    if g.kind == Predefined && |g.specs| > 0 {
      assert r2.goalList == RemoveEachLast(L, g.specs);
      RemoveEachThenFirst(L, g.specs, id);
      assert Elems(g.specs) + {id} == RemovedIds(r, id);
    } else {
      assert r2.goalList == L;
      RemoveFirstIsWithout(L, id);
      assert g.kind == Predefined ==> Elems(g.specs) == {};
      assert RemovedIds(r, id) == {id};
    }
  }

  lemma RemoveGoalKeys(r: Registry, id: int)
    requires Valid(r)
    requires GetGoalInstanceFromUniqueId(r, id).Found?
    ensures id in r.arena
    ensures RemoveGoal(r, id).arena.Keys == r.arena.Keys - RemovedIds(r, id)
  {
    RemoveGoalSteps(r, id);
  }

  /** `removeGoal` filters exactly the removed ids out of the list, keeping
      the relative order of the rest; the arena loses the same ids; the
      counter is untouched, so removed ids are never handed out again. */
  lemma RemoveGoalFilters(r: Registry, id: int)
    requires Valid(r)
    requires GetGoalInstanceFromUniqueId(r, id).Found?
    ensures id in r.arena
    ensures RemoveGoal(r, id).goalList == Without(r.goalList, RemovedIds(r, id))
    ensures RemoveGoal(r, id).arena.Keys == r.arena.Keys - RemovedIds(r, id)
    ensures Subsequence(RemoveGoal(r, id).goalList, r.goalList)
  {
    RemoveGoalList(r, id);
    RemoveGoalKeys(r, id);
    WithoutIsSubsequence(r.goalList, RemovedIds(r, id));
  }

  /** Every removed id was in the list: the goal itself and, in a valid
      registry, each specification its goal lists. The goal is not one of its
      own specifications. */
  lemma RemovedIdsCardinality(r: Registry, id: int)
    requires Valid(r) && id in r.arena
    ensures RemovedIds(r, id) <= Elems(r.goalList)
    ensures |RemovedIds(r, id)| == if r.arena[id].kind == Predefined then |r.arena[id].specs| + 1 else 1
  {
    var g := r.arena[id];
    if g.kind == Predefined {
      assert Linked(r.arena, id);
      forall k | 0 <= k < |g.specs| ensures g.specs[k] != id && g.specs[k] in Elems(r.goalList) {
        assert SpecOf(r.arena, g.specs[k], id);
      }
      NoDupCardinality(g.specs);
      assert id !in Elems(g.specs);
    }
  }

  /** Removing a predefined goal with N specifications removes exactly N + 1
      entries; removing any other goal removes exactly one. */
  lemma RemoveGoalCount(r: Registry, id: int)
    requires Valid(r)
    requires GetGoalInstanceFromUniqueId(r, id).Found?
    ensures id in r.arena
    ensures r.arena[id].kind == Predefined ==> Count(RemoveGoal(r, id)) == Count(r) - |r.arena[id].specs| - 1
    ensures r.arena[id].kind != Predefined ==> Count(RemoveGoal(r, id)) == Count(r) - 1
  {
    RemoveGoalFilters(r, id);
    RemovedIdsCardinality(r, id);
    IncreasingNoDup(r.goalList);
    WithoutLength(r.goalList, RemovedIds(r, id));
  }

  /** What removal does to the surviving records: removing a specification
      keeps its parent and drops the specification's id from the parent's
      list; every other surviving record is unchanged. */
  lemma RemoveGoalRecords(r: Registry, id: int)
    requires Valid(r)
    requires GetGoalInstanceFromUniqueId(r, id).Found?
    ensures id in r.arena && id !in RemoveGoal(r, id).arena
    ensures var g := r.arena[id]; var r' := RemoveGoal(r, id);
      && (g.kind == PredefinedSpecification ==>
            && g.parent.Some? && g.parent.value in r'.arena
            && r'.arena[g.parent.value] == r.arena[g.parent.value].(specs := Without(r.arena[g.parent.value].specs, {id}))
            && |r'.arena[g.parent.value].specs| == |r.arena[g.parent.value].specs| - 1)
      && (forall x :: x in r'.arena && (g.kind != PredefinedSpecification || x != g.parent.value) ==> r'.arena[x] == r.arena[x])
  {
    LookupFindsKey(r, id);
    RemoveGoalFilters(r, id);
    var g := r.arena[id];
    if g.kind == PredefinedSpecification {
      var q := g.parent.value;
      assert Linked(r.arena, id);
      assert Linked(r.arena, q);
      assert q != id;
      RemoveFirstIsWithout(r.arena[q].specs, id);
    }
  }

  /** The references of record `x` avoid the ids in `drop`. */
  predicate RefsAvoid(A: map<int, Goal>, x: int, drop: set<int>)
    requires x in A
  {
    && (forall k :: 0 <= k < |A[x].specs| ==> A[x].specs[k] !in drop)
    && (A[x].parent.Some? ==> A[x].parent.value !in drop)
  }

  /** Deleting ids that no surviving record refers to keeps every link. */
  lemma DeleteKeepsLinks(A: map<int, Goal>, drop: set<int>)
    requires AllLinked(A)
    requires forall x :: x in A && x !in drop ==> RefsAvoid(A, x, drop)
    ensures AllLinked(A - drop)
  {
    var A' := A - drop;
    forall x | x in A' ensures Linked(A', x) {
      assert Linked(A, x) && RefsAvoid(A, x, drop);
      var g := A[x];
      if g.kind == Predefined {
        forall k | 0 <= k < |g.specs| ensures SpecOf(A', g.specs[k], x) {
          assert SpecOf(A, g.specs[k], x);
        }
      } else if g.kind == PredefinedSpecification {
        var q := g.parent.value;
        assert q in A && q !in drop;
      }
    }
  }

  /** Removing a user goal or a predefined goal with its specifications
      leaves no reference to a removed id. */
  lemma RemovedGoalUnreferenced(r: Registry, id: int)
    requires Valid(r) && id in r.arena && r.arena[id].kind != PredefinedSpecification
    ensures forall x :: x in r.arena && x !in RemovedIds(r, id) ==> RefsAvoid(r.arena, x, RemovedIds(r, id))
  {
    var A, R, g := r.arena, RemovedIds(r, id), r.arena[id];
    forall x | x in A && x !in R ensures RefsAvoid(A, x, R) {
      assert Linked(A, x);
      var h := A[x];
      if h.kind == Predefined {
        forall k | 0 <= k < |h.specs| ensures h.specs[k] !in R {
          var s := h.specs[k];
          assert SpecOf(A, s, x);
          if g.kind == Predefined {
            forall k' | 0 <= k' < |g.specs| ensures g.specs[k'] != s {
              assert SpecOf(A, g.specs[k'], id);
            }
          }
        }
      } else if h.kind == PredefinedSpecification {
        var q := h.parent.value;
        assert A[q].kind == Predefined;
        assert x in A[q].specs;
        if g.kind == Predefined {
          forall k' | 0 <= k' < |g.specs| ensures g.specs[k'] != q {
            assert SpecOf(A, g.specs[k'], id);
          }
        }
      }
    }
  }

  /** Removing specification `id` of parent `q`: the links survive. */
  lemma RemoveSpecificationKeepsLinks(A: map<int, Goal>, A': map<int, Goal>, id: int, q: int)
    requires AllLinked(A)
    requires id in A && A[id].kind == PredefinedSpecification && A[id].parent == Some(q)
    requires q in A' && A'[q] == A[q].(specs := Without(A[q].specs, {id}))
    requires forall x :: x in A' && x != q ==> x in A && A'[x] == A[x]
    requires A'.Keys == A.Keys - {id}
    ensures AllLinked(A')
  {
    assert Linked(A, id);
    assert q in A && A[q].kind == Predefined;
    forall x | x in A' ensures Linked(A', x) {
      assert Linked(A, x);
      var h := A[x];
      if x == q {
        var specs' := A'[q].specs;
        assert NoDup(A[q].specs);
        WithoutKeepsNoDup(A[q].specs, {id});
        forall k | 0 <= k < |specs'| ensures SpecOf(A', specs'[k], q) {
          var s := specs'[k];
          assert s in A[q].specs && s != id;
          var k' :| 0 <= k' < |A[q].specs| && A[q].specs[k'] == s;
          assert SpecOf(A, A[q].specs[k'], q);
        }
      } else if h.kind == Predefined {
        forall k | 0 <= k < |h.specs| ensures SpecOf(A', h.specs[k], x) {
          assert SpecOf(A, h.specs[k], x);
        }
      } else if h.kind == PredefinedSpecification {
        var p := h.parent.value;
        if p == q {
          assert x in A[q].specs && x != id;
          assert x in A'[q].specs;
        } else {
          assert p != id;
          assert A'[p] == A[p];
        }
      }
    }
  }

  /** The arena after removing a user goal or a predefined goal is the old
      arena without the removed ids. */
  lemma RemoveGoalArena(r: Registry, id: int)
    requires Valid(r)
    requires GetGoalInstanceFromUniqueId(r, id).Found?
    ensures id in r.arena
    ensures r.arena[id].kind != PredefinedSpecification ==> RemoveGoal(r, id).arena == r.arena - RemovedIds(r, id)
  {
    RemoveGoalSteps(r, id);
    var g := r.arena[id];
    if g.kind == Predefined && |g.specs| > 0 {
      assert (r.arena - Elems(g.specs)) - {id} == r.arena - RemovedIds(r, id);
    } else if g.kind != PredefinedSpecification {
      assert RemovedIds(r, id) == {id};
    }
  }

  lemma RemoveGoalKeepsLinks(r: Registry, id: int)
    requires Valid(r)
    requires GetGoalInstanceFromUniqueId(r, id).Found?
    ensures AllLinked(RemoveGoal(r, id).arena)
  {
    RemoveGoalFilters(r, id);
    var g := r.arena[id];
    if g.kind == PredefinedSpecification {
      RemoveGoalRecords(r, id);
      RemoveSpecificationKeepsLinks(r.arena, RemoveGoal(r, id).arena, id, g.parent.value);
    } else {
      RemoveGoalArena(r, id);
      RemovedGoalUnreferenced(r, id);
      DeleteKeepsLinks(r.arena, RemovedIds(r, id));
    }
  }

  /** Removal keeps every surviving record under its own id. */
  lemma RemoveGoalKeyed(r: Registry, id: int)
    requires Valid(r)
    requires GetGoalInstanceFromUniqueId(r, id).Found?
    ensures KeyedById(RemoveGoal(r, id))
  {
    RemoveGoalRecords(r, id);
    var r' := RemoveGoal(r, id);
    forall x | x in r'.arena ensures r'.arena[x].uniqueId == x {
      assert x in r.arena;
    }
  }

  /** A registry whose list is a filtered old list and whose arena lost the
      same ids is valid once its links and keys are. */
  lemma FilteredValid(r: Registry, r': Registry, drop: set<int>)
    requires Valid(r)
    requires r'.goalList == Without(r.goalList, drop)
    requires r'.arena.Keys == r.arena.Keys - drop
    requires r'.goalId == r.goalId
    requires AllLinked(r'.arena) && KeyedById(r')
    ensures Valid(r')
  {
    WithoutIsSubsequence(r.goalList, drop);
    SubsequenceKeepsIncreasing(r'.goalList, r.goalList);
    forall x | x in r'.arena ensures x in r'.goalList {
      assert x in r.arena && x !in drop;
    }
    forall i | 0 <= i < |r'.goalList| ensures r'.goalList[i] in r'.arena && 0 <= r'.goalList[i] < r'.goalId {
      assert r'.goalList[i] in r.goalList;
    }
  }

  /** Every removal keeps the registry invariant; in particular no surviving
      record points to the removed goal, and every surviving specification is
      still listed by its surviving parent. */
  lemma RemoveGoalPreservesValid(r: Registry, id: int)
    requires Valid(r)
    requires GetGoalInstanceFromUniqueId(r, id).Found?
    ensures Valid(RemoveGoal(r, id))
    ensures forall x :: x in RemoveGoal(r, id).arena ==> RemoveGoal(r, id).arena[x].parent != Some(id)
  {
    var r' := RemoveGoal(r, id);
    RemoveGoalFilters(r, id);
    RemoveGoalKeepsLinks(r, id);
    RemoveGoalKeyed(r, id);
    FilteredValid(r, r', RemovedIds(r, id));
    assert id !in r'.arena;
    forall x | x in r'.arena ensures r'.arena[x].parent != Some(id) {
      assert Linked(r'.arena, x);
    }
  }

  // ---------------------------------------------------------------------
  // Batch adding from the curriculum dialog
  // ---------------------------------------------------------------------

  /** The dialog's finish handler: `addGoal` once per chosen aim, in order. */
  function AddGoals(r: Registry, p: Params, aims: seq<CompetenceAim>): (r': Registry)
    ensures Count(r') == Count(r) + |aims| && r'.goalId == r.goalId + |aims|
    ensures |r'.goalList| >= |r.goalList| && r'.goalList[..|r.goalList|] == r.goalList
    decreases |aims|
  {
    if aims == [] then r
    else
      var r1 := AddGoal(r, p, Some(aims[0]));
      var r' := AddGoals(r1, p, aims[1..]);
      assert r'.goalList[..|r.goalList|] == r'.goalList[..|r1.goalList|][..|r.goalList|];
      r'
  }

  lemma {:induction false} AddGoalsPreservesValid(r: Registry, p: Params, aims: seq<CompetenceAim>)
    requires Valid(r)
    ensures Valid(AddGoals(r, p, aims))
    decreases |aims|
  {
    if aims != [] {
      AddGoalPreservesValid(r, p, Some(aims[0]));
      AddGoalsPreservesValid(AddGoal(r, p, Some(aims[0])), p, aims[1..]);
    }
  }

  /** Each chosen aim becomes one predefined goal, appended in the order the
      dialog reported them, with consecutive fresh ids. */
  lemma {:induction false} AddGoalsAppends(r: Registry, p: Params, aims: seq<CompetenceAim>)
    ensures var r' := AddGoals(r, p, aims);
      && |r'.goalList| == |r.goalList| + |aims|
      && forall j :: |r.goalList| <= j < |r'.goalList| ==>
           && r'.goalList[j] == r.goalId + (j - |r.goalList|)
           && r'.goalList[j] in r'.arena
           && r'.arena[r'.goalList[j]] == GoalFor(p, Some(aims[j - |r.goalList|]), r'.goalList[j])
    decreases |aims|
  {
    if aims != [] {
      var r1 := AddGoal(r, p, Some(aims[0]));
      AddGoalsAppends(r1, p, aims[1..]);
      AddGoalsKeepsOld(r1, p, aims[1..], r.goalId);
      var r' := AddGoals(r1, p, aims[1..]);
      assert r' == AddGoals(r, p, aims);
      assert |r1.goalList| == |r.goalList| + 1 && r1.goalId == r.goalId + 1;
      forall j | |r.goalList| <= j < |r'.goalList|
        ensures r'.goalList[j] == r.goalId + (j - |r.goalList|)
        ensures r'.goalList[j] in r'.arena
        ensures r'.arena[r'.goalList[j]] == GoalFor(p, Some(aims[j - |r.goalList|]), r'.goalList[j])
      {
        if j == |r.goalList| {
          assert r'.goalList[..|r1.goalList|] == r1.goalList;
          assert r'.goalList[j] == r1.goalList[j];
        } else {
          assert aims[1..][j - |r1.goalList|] == aims[j - |r.goalList|];
        }
      }
    } else {
      assert AddGoals(r, p, aims) == r;
    }
  }

  /** Records already present keep their content while more aims are added. */
  lemma {:induction false} AddGoalsKeepsOld(r: Registry, p: Params, aims: seq<CompetenceAim>, x: int)
    requires x in r.arena && x < r.goalId
    ensures x in AddGoals(r, p, aims).arena && AddGoals(r, p, aims).arena[x] == r.arena[x]
    decreases |aims|
  {
    if aims != [] {
      AddGoalsKeepsOld(AddGoal(r, p, Some(aims[0])), p, aims[1..], x);
    }
  }

  // ---------------------------------------------------------------------
  // Committing edited text
  // ---------------------------------------------------------------------

  /** What the input shows once it gains focus: the placeholder is cleared,
      any other text stays. */
  function FocusedText(p: Params, text: string): (t: string)
    ensures text == p.defineGoalPlaceholder ==> t == []
    ensures text != p.defineGoalPlaceholder ==> t == text
  {
    if text == p.defineGoalPlaceholder then [] else text
  }

  /** The text stored when the input loses focus: an emptied input falls
      back to the placeholder. */
  function BlurredText(p: Params, shown: string): (t: string)
    ensures shown != [] ==> t == shown
    ensures shown == [] ==> t == p.defineGoalPlaceholder
    ensures p.defineGoalPlaceholder != [] ==> t != []
  {
    if shown == [] then p.defineGoalPlaceholder else shown
  }

  /** Commit on blur: the goal looked up by `id` gets the blurred text. */
  function CommitGoalText(r: Registry, p: Params, id: int, shown: string): (r': Registry)
    requires Valid(r)
    requires GetGoalInstanceFromUniqueId(r, id).Found?
    ensures r'.goalList == r.goalList && r'.goalId == r.goalId && r'.arena.Keys == r.arena.Keys
  {
    LookupFindsKey(r, id);
    r.(arena := r.arena[id := r.arena[id].(text := BlurredText(p, shown))])
  }

  /** Changing the texts of records leaves the links alone. */
  lemma RetextKeepsLinks(A: map<int, Goal>, A': map<int, Goal>)
    requires AllLinked(A) && A'.Keys == A.Keys
    requires forall x :: x in A ==> A'[x] == A[x].(text := A'[x].text)
    ensures AllLinked(A')
  {
    forall x | x in A' ensures Linked(A', x) {
      assert Linked(A, x);
      var g := A[x];
      if g.kind == Predefined {
        forall k | 0 <= k < |g.specs| ensures SpecOf(A', g.specs[k], x) {
          var c := g.specs[k];
          assert SpecOf(A, c, x);
          assert A'[c] == A[c].(text := A'[c].text);
        }
      } else if g.kind == PredefinedSpecification {
        var q := g.parent.value;
        assert A'[q] == A[q].(text := A'[q].text);
      }
    }
  }

  /** Focusing an input and leaving it without typing commits the text it
      already had, unless that text was empty: then the placeholder is
      stored instead. */
  lemma FocusBlurKeepsText(p: Params, text: string)
    ensures text != [] ==> BlurredText(p, FocusedText(p, text)) == text
    ensures text == [] ==> BlurredText(p, FocusedText(p, text)) == p.defineGoalPlaceholder
  {
  }

  /** Committing changes only the text of the looked-up goal, keeps the
      registry valid, stores the placeholder for an emptied input (so never an
      empty text while the placeholder is non-empty), and focusing then
      leaving an input without typing stores what was already there, or the
      placeholder when that was empty. */
  lemma CommitGoalTextEffect(r: Registry, p: Params, id: int, shown: string)
    requires Valid(r)
    requires GetGoalInstanceFromUniqueId(r, id).Found?
    ensures id in r.arena
    ensures var r' := CommitGoalText(r, p, id, shown);
      && Valid(r')
      && r'.arena[id] == r.arena[id].(text := r'.arena[id].text)
      && (shown != [] ==> r'.arena[id].text == shown)
      && (shown == [] ==> r'.arena[id].text == p.defineGoalPlaceholder)
      && (p.defineGoalPlaceholder != [] ==> r'.arena[id].text != [])
      && (forall x :: x in r.arena && x != id ==> r'.arena[x] == r.arena[x])
    ensures r.arena[id].text != [] ==> CommitGoalText(r, p, id, FocusedText(p, r.arena[id].text)) == r
    ensures r.arena[id].text == [] ==>
      CommitGoalText(r, p, id, FocusedText(p, r.arena[id].text)).arena[id].text == p.defineGoalPlaceholder
  {
    LookupFindsKey(r, id);
    var r' := CommitGoalText(r, p, id, shown);
    RetextKeepsLinks(r.arena, r'.arena);
    var text := r.arena[id].text;
    if text != [] {
      FocusBlurKeepsText(p, text);
      assert r.arena[id := r.arena[id].(text := text)] == r.arena;
    }
  }
}

=== FILE: goals_page_traces.dfy ===
/** Sequences of user actions on the goals page, run against the registry:
    every reachable registry is valid, ids only grow, a removed id never
    comes back, and the list-length scenarios come out as expected. */
module GoalsPageTraces {
  import opened Sequences
  import opened GoalInstance
  import opened GoalsPage

  /** A user action that reaches the registry. */
  datatype Action =
    | CreateGoal                           // the "Create a new goal" button
    | ChooseAims(aims: seq<CompetenceAim>) // the curriculum dialog finishes with these aims
    | Specify(id: int)                     // the Specify button of goal `id`
    | Remove(id: int)                      // the Remove button of goal `id`
    | Commit(id: int, shown: string)       // the input of goal `id` loses focus showing `shown`

  /** `r'` is a valid successor of `r`: the counter did not go back, and
      every record it holds was already in `r` or has an id handed out after
      `r`, so no id in use was ever used before. */
  predicate Grows(r: Registry, r': Registry) {
    && Valid(r')
    && r'.goalId >= r.goalId
    && forall x :: x in r'.arena ==> x in r.arena || x >= r.goalId
  }

  /** Why an action could not be carried out: the id is not on the page,
      or the goal has no Specify button because it is not predefined. */
  datatype Failure = UnknownId | InvalidOperation

  /** The registry after an action, or why the action failed. */
  datatype Outcome = Done(reg: Registry) | Failed(failure: Failure)

  /** One action. `UnknownId` where the lookup of a stale id yields the -1
      sentinel, on which the page itself would fail; `InvalidOperation` for
      Specify on a goal that is not predefined, which the page offers no
      button for. */
  function Step(r: Registry, p: Params, a: Action): (res: Outcome)
    requires Valid(r)
    ensures res.Done? ==> Grows(r, res.reg)
  {
    match a
    case CreateGoal =>
      CreateGrows(r, p);
      Done(AddGoal(r, p, None))
    case ChooseAims(aims) =>
      ChooseGrows(r, p, aims);
      Done(AddGoals(r, p, aims))
    case Specify(id) =>
      var found := GetGoalInstanceFromUniqueId(r, id);
      if found.NotFound? then Failed(UnknownId)
      else if found.goal.kind != Predefined then Failed(InvalidOperation)
      else
        SpecifyGrows(r, p, id);
        Done(AddSpecificationToGoal(r, p, id))
    case Remove(id) =>
      if GetGoalInstanceFromUniqueId(r, id).NotFound? then Failed(UnknownId)
      else
        RemoveGrows(r, id);
        Done(RemoveGoal(r, id))
    case Commit(id, shown) =>
      if GetGoalInstanceFromUniqueId(r, id).NotFound? then Failed(UnknownId)
      else
        CommitGrows(r, p, id, shown);
        Done(CommitGoalText(r, p, id, shown))
  }

  /** Step reports two recoverable failures, and only these: `UnknownId`
      for an action naming an id that is not in use, and `InvalidOperation`
      for Specify on a goal that is not predefined. Creating and choosing
      goals never fail. */
  lemma StepFailures(r: Registry, p: Params, a: Action)
    requires Valid(r)
    ensures a.Specify? || a.Remove? || a.Commit? ==>
      (Step(r, p, a) == Failed(UnknownId) <==> a.id !in r.arena)
    ensures a.Specify? ==>
      (Step(r, p, a) == Failed(InvalidOperation) <==> a.id in r.arena && r.arena[a.id].kind != Predefined)
    ensures a.CreateGoal? || a.ChooseAims? ==> Step(r, p, a).Done?
  {
    if a.Specify? || a.Remove? || a.Commit? {
      LookupFindsKey(r, a.id);
    }
  }

  lemma CreateGrows(r: Registry, p: Params)
    requires Valid(r)
    ensures Grows(r, AddGoal(r, p, None))
  {
    AddGoalPreservesValid(r, p, None);
  }

  lemma ChooseGrows(r: Registry, p: Params, aims: seq<CompetenceAim>)
    requires Valid(r)
    ensures Grows(r, AddGoals(r, p, aims))
  {
    AddGoalsPreservesValid(r, p, aims);
    AddGoalsKeys(r, p, aims);
  }

  lemma SpecifyGrows(r: Registry, p: Params, id: int)
    requires Valid(r)
    requires GetGoalInstanceFromUniqueId(r, id).Found?
    requires GetGoalInstanceFromUniqueId(r, id).goal.kind == Predefined
    ensures Grows(r, AddSpecificationToGoal(r, p, id))
  {
    AddSpecificationPreservesValid(r, p, id);
    AddSpecificationEffect(r, p, id);
  }

  lemma RemoveGrows(r: Registry, id: int)
    requires Valid(r)
    requires GetGoalInstanceFromUniqueId(r, id).Found?
    ensures Grows(r, RemoveGoal(r, id))
  {
    RemoveGoalPreservesValid(r, id);
    RemoveGoalFilters(r, id);
  }

  lemma CommitGrows(r: Registry, p: Params, id: int, shown: string)
    requires Valid(r)
    requires GetGoalInstanceFromUniqueId(r, id).Found?
    ensures Grows(r, CommitGoalText(r, p, id, shown))
  {
    CommitGoalTextEffect(r, p, id, shown);
  }

  /** Keys after a batch add: the old ones and ids from the counter onwards. */
  lemma {:induction false} AddGoalsKeys(r: Registry, p: Params, aims: seq<CompetenceAim>)
    ensures forall x :: x in AddGoals(r, p, aims).arena ==> x in r.arena || x >= r.goalId
    decreases |aims|
  {
    if aims != [] {
      var r1 := AddGoal(r, p, Some(aims[0]));
      AddGoalsKeys(r1, p, aims[1..]);
      assert AddGoals(r, p, aims) == AddGoals(r1, p, aims[1..]);
    } else {
      assert AddGoals(r, p, aims) == r;
    }
  }

  /** Runs the actions in order, stopping at the first failure. */
  function Run(r: Registry, p: Params, actions: seq<Action>): (res: Outcome)
    requires Valid(r)
    ensures res.Done? ==> Valid(res.reg) && res.reg.goalId >= r.goalId
    decreases |actions|
  {
    if actions == [] then Done(r)
    else
      match Step(r, p, actions[0])
      case Failed(f) => Failed(f)
      case Done(r1) => Run(r1, p, actions[1..])
  }

  /** Ids are never reused: an id below the counter that is not in use stays
      out of use whatever actions follow. */
  lemma {:induction false} RemovedIdStaysRemoved(r: Registry, p: Params, actions: seq<Action>, id: int)
    requires Valid(r)
    requires id < r.goalId && id !in r.arena
    ensures Run(r, p, actions).Done? ==> id !in Run(r, p, actions).reg.arena
    decreases |actions|
  {
    if actions != [] {
      var step := Step(r, p, actions[0]);
      if step.Done? {
        RemovedIdStaysRemoved(step.reg, p, actions[1..], id);
      }
    }
  }

  /** Running `a + b` runs `a`, then `b` from where `a` left off. */
  lemma {:induction false} RunAppend(r: Registry, p: Params, a: seq<Action>, b: seq<Action>)
    requires Valid(r)
    ensures Run(r, p, a + b) ==
      match Run(r, p, a)
      case Failed(f) => Failed(f)
      case Done(r1) => Run(r1, p, b)
    decreases |a|
  {
    if a == [] {
      assert a + b == b;
    } else {
      assert (a + b)[0] == a[0] && (a + b)[1..] == a[1..] + b;
      var step := Step(r, p, a[0]);
      if step.Done? {
        RunAppend(step.reg, p, a[1..], b);
      }
    }
  }

  /** Running a non-empty list is its first step followed by the rest. */
  lemma RunCons(r: Registry, p: Params, a: Action, rest: seq<Action>)
    requires Valid(r) && Step(r, p, a).Done?
    ensures Run(r, p, [a] + rest) == Run(Step(r, p, a).reg, p, rest)
  {
    assert ([a] + rest)[0] == a && ([a] + rest)[1..] == rest;
  }

  /** Running no actions leaves the registry as it is. */
  lemma RunNil(r: Registry, p: Params)
    requires Valid(r)
    ensures Run(r, p, []) == Done(r)
  {
  }

  /** "Create a new goal" as the first action: one user goal is appended. */
  lemma RunCreate(r: Registry, p: Params, rest: seq<Action>)
    requires Valid(r)
    ensures Valid(AddGoal(r, p, None))
    ensures Run(r, p, [CreateGoal] + rest) == Run(AddGoal(r, p, None), p, rest)
  {
    AddGoalPreservesValid(r, p, None);
    RunCons(r, p, CreateGoal, rest);
  }

  /** Choosing one aim as the first action: a predefined goal with no
      specifications is added under the counter's id. */
  lemma RunChooseOne(r: Registry, p: Params, aim: CompetenceAim, rest: seq<Action>)
    requires Valid(r)
    ensures var r' := AddGoals(r, p, [aim]);
      && Valid(r') && Count(r') == Count(r) + 1 && r.goalId in r'.arena
      && r'.arena[r.goalId].kind == Predefined && r'.arena[r.goalId].specs == []
    ensures Run(r, p, [ChooseAims([aim])] + rest) == Run(AddGoals(r, p, [aim]), p, rest)
  {
    AddGoalsPreservesValid(r, p, [aim]);
    AddGoalsAppends(r, p, [aim]);
    var r' := AddGoals(r, p, [aim]);
    assert r'.goalList[|r.goalList|] == r.goalId;
    RunCons(r, p, ChooseAims([aim]), rest);
  }

  /** Specifying a predefined goal keeps the registry valid and gives the
      goal one more specification. */
  lemma SpecifyEffect(r: Registry, p: Params, g: int)
    requires Valid(r) && g in r.arena && r.arena[g].kind == Predefined
    ensures GetGoalInstanceFromUniqueId(r, g) == Found(r.arena[g])
    ensures var r' := AddSpecificationToGoal(r, p, g);
      && Valid(r') && g in r'.arena && r'.arena[g].kind == Predefined
      && |r'.arena[g].specs| == |r.arena[g].specs| + 1
  {
    LookupFindsKey(r, g);
    AddSpecificationPreservesValid(r, p, g);
    AddSpecificationEffect(r, p, g);
  }

  lemma StepSpecify(r: Registry, p: Params, g: int)
    requires Valid(r) && g in r.arena && r.arena[g].kind == Predefined
    requires GetGoalInstanceFromUniqueId(r, g) == Found(r.arena[g])
    ensures Step(r, p, Specify(g)) == Done(AddSpecificationToGoal(r, p, g))
  {
  }

  /** Specifying a predefined goal as the first action. */
  lemma RunSpecify(r: Registry, p: Params, g: int, rest: seq<Action>)
    requires Valid(r) && g in r.arena && r.arena[g].kind == Predefined
    ensures GetGoalInstanceFromUniqueId(r, g) == Found(r.arena[g])
    ensures Valid(AddSpecificationToGoal(r, p, g))
    ensures Run(r, p, [Specify(g)] + rest) == Run(AddSpecificationToGoal(r, p, g), p, rest)
  {
    SpecifyEffect(r, p, g);
    StepSpecify(r, p, g);
    RunCons(r, p, Specify(g), rest);
  }

  /** Removing a present goal as the first action. */
  lemma RunRemove(r: Registry, p: Params, g: int, rest: seq<Action>)
    requires Valid(r) && g in r.arena
    ensures GetGoalInstanceFromUniqueId(r, g).Found?
    ensures Valid(RemoveGoal(r, g))
    ensures Run(r, p, [Remove(g)] + rest) == Run(RemoveGoal(r, g), p, rest)
  {
    LookupFindsKey(r, g);
    RemoveGoalPreservesValid(r, g);
    RunCons(r, p, Remove(g), rest);
  }

  /** A chosen goal specified once: two entries more. `g` is the id the
      chosen goal receives. */
  lemma ChooseSpecifyRun(r: Registry, p: Params, aim: CompetenceAim, g: int)
    requires Valid(r) && g == r.goalId
    ensures var res := Run(r, p, [ChooseAims([aim]), Specify(g)]);
      && res.Done? && Count(res.reg) == Count(r) + 2
      && g in res.reg.arena && res.reg.arena[g].kind == Predefined
      && |res.reg.arena[g].specs| == 1
  {
    var t := [Specify(g)];
    RunChooseOne(r, p, aim, t);
    SpecifyLastRun(AddGoals(r, p, [aim]), p, g);
    assert [ChooseAims([aim]), Specify(g)] == [ChooseAims([aim])] + t;
  }

  /** A user goal, a chosen goal and one specification of the chosen goal
      add three entries to the goal list, since specifications are listed too.
      `g` is the id the chosen goal receives. */
  lemma ListLengthScenario(r: Registry, p: Params, aim: CompetenceAim, g: int)
    requires Valid(r) && g == r.goalId + 1
    ensures var res := Run(r, p, [CreateGoal, ChooseAims([aim]), Specify(g)]);
      res.Done? && Count(res.reg) == Count(r) + 3
  {
    var t := [ChooseAims([aim]), Specify(g)];
    RunCreate(r, p, t);
    ChooseSpecifyRun(AddGoal(r, p, None), p, aim, g);
    assert [CreateGoal, ChooseAims([aim]), Specify(g)] == [CreateGoal] + t;
  }

  /** Removing a predefined goal with two specifications takes three entries away. */
  lemma RemoveTwoSpecsRun(r: Registry, p: Params, g: int)
    requires Valid(r) && g in r.arena && r.arena[g].kind == Predefined && |r.arena[g].specs| == 2
    ensures var res := Run(r, p, [Remove(g)]);
      res.Done? && Count(res.reg) == Count(r) - 3
  {
    RunRemove(r, p, g, []);
    RemoveGoalCount(r, g);
    assert [Remove(g)] == [Remove(g)] + [];
  }

  /** Specifying a predefined goal as the only action: one entry more, and
      the goal lists one specification more. */
  lemma SpecifyLastRun(r: Registry, p: Params, g: int)
    requires Valid(r) && g in r.arena && r.arena[g].kind == Predefined
    ensures var res := Run(r, p, [Specify(g)]);
      && res.Done? && Count(res.reg) == Count(r) + 1
      && g in res.reg.arena && res.reg.arena[g].kind == Predefined
      && |res.reg.arena[g].specs| == |r.arena[g].specs| + 1
  {
    SpecifyEffect(r, p, g);
    RunSpecify(r, p, g, []);
    RunNil(AddSpecificationToGoal(r, p, g), p);
    assert [Specify(g)] == [Specify(g)] + [];
  }

  /** A chosen goal specified twice: three entries more, and the goal lists
      both specifications. `g` is the id the chosen goal receives. */
  lemma ChooseSpecifyTwiceRun(r: Registry, p: Params, aim: CompetenceAim, g: int)
    requires Valid(r) && g == r.goalId
    ensures var res := Run(r, p, [ChooseAims([aim]), Specify(g), Specify(g)]);
      && res.Done? && Count(res.reg) == Count(r) + 3
      && g in res.reg.arena && res.reg.arena[g].kind == Predefined
      && |res.reg.arena[g].specs| == 2
  {
    var first := [ChooseAims([aim]), Specify(g)];
    ChooseSpecifyRun(r, p, aim, g);
    RunAppend(r, p, first, [Specify(g)]);
    SpecifyLastRun(Run(r, p, first).reg, p, g);
    assert first + [Specify(g)] == [ChooseAims([aim]), Specify(g), Specify(g)];
  }

  /** A chosen goal with two specifications holds three entries more, and
      removing the goal takes all three entries away again. */
  lemma CascadeScenario(r: Registry, p: Params, aim: CompetenceAim, g: int)
    requires Valid(r) && g == r.goalId
    ensures var res := Run(r, p, [ChooseAims([aim]), Specify(g), Specify(g)]);
      && res.Done? && Count(res.reg) == Count(r) + 3
      && Run(res.reg, p, [Remove(g)]).Done?
      && Count(Run(res.reg, p, [Remove(g)]).reg) == Count(r)
  {
    ChooseSpecifyTwiceRun(r, p, aim, g);
    RemoveTwoSpecsRun(Run(r, p, [ChooseAims([aim]), Specify(g), Specify(g)]).reg, p, g);
  }

  /** From an empty page the first scenario leaves three entries on the goal list. */
  lemma ListLengthFromInitial(p: Params, aim: CompetenceAim)
    ensures Valid(Initial)
    ensures var res := Run(Initial, p, [CreateGoal, ChooseAims([aim]), Specify(1)]);
      res.Done? && Count(res.reg) == 3
  {
    InitialValid();
    ListLengthScenario(Initial, p, aim, 1);
  }

  /** From an empty page the second scenario ends with an empty list. */
  lemma CascadeFromInitial(p: Params, aim: CompetenceAim)
    ensures Valid(Initial)
    ensures var res := Run(Initial, p, [ChooseAims([aim]), Specify(0), Specify(0)]);
      && res.Done? && Count(res.reg) == 3
      && Run(res.reg, p, [Remove(0)]).Done?
      && Count(Run(res.reg, p, [Remove(0)]).reg) == 0
  {
    InitialValid();
    CascadeScenario(Initial, p, aim, 0);
  }
}

=== FILE: sequences.dfy ===
/** Sequence helpers for the goal list: duplicate-freedom, ordering, and the
    three ways the goals page takes an id out of an array (indexOf + splice,
    last-match scan + splice, and the filter they all agree with). */
module Sequences {

  /** Optional value, used for the parent back-reference of a record. */
  datatype Option<+T> = None | Some(value: T)

  /** No value occurs twice. */
  predicate NoDup(s: seq<int>) {
    forall i, j :: 0 <= i < j < |s| ==> s[i] != s[j]
  }

  /** Values strictly increase from front to back. */
  predicate StrictlyIncreasing(s: seq<int>) {
    forall i, j :: 0 <= i < j < |s| ==> s[i] < s[j]
  }

  /** The set of values of a sequence. */
  function Elems(s: seq<int>): set<int> {
    set x | x in s
  }

  /** Number of occurrences of `x` in `s`. */
  function Occurrences<T(==)>(s: seq<T>, x: T): nat {
    if s == [] then 0 else (if s[0] == x then 1 else 0) + Occurrences(s[1..], x)
  }

  /** `a` is obtained from `b` by deleting elements and keeping the order of the rest. */
  predicate Subsequence(a: seq<int>, b: seq<int>)
    decreases |b|
  {
    if a == [] then true
    else if b == [] then false
    else if a[0] == b[0] then Subsequence(a[1..], b[1..])
    else Subsequence(a, b[1..])
  }

  /** `Array.prototype.indexOf` followed by `splice(index, 1)`: drops the
      first occurrence of `x`, and leaves `s` alone when `x` is absent. */
  function RemoveFirst(s: seq<int>, x: int): (r: seq<int>)
    ensures x in s ==> |r| == |s| - 1
    ensures x !in s ==> r == s
    ensures forall y :: y in r ==> y in s
  {
    if s == [] then []
    else if s[0] == x then s[1..]
    else [s[0]] + RemoveFirst(s[1..], x)
  }

  /** A `forEach` scan that remembers the last matching index, followed by
      `splice(index, 1)` when some index matched. */
  function RemoveLast(s: seq<int>, x: int): (r: seq<int>)
    ensures x in s ==> |r| == |s| - 1
    ensures x !in s ==> r == s
    ensures forall y :: y in r ==> y in s
  {
    if s == [] then []
    else if s[|s| - 1] == x then s[..|s| - 1]
    else RemoveLast(s[..|s| - 1], x) + [s[|s| - 1]]
  }

  /** `RemoveFirst` cuts out exactly the entry at the first index holding
      `x`: some entry equal to `x`, with no `x` before it. */
  lemma {:induction false} RemoveFirstAt(s: seq<int>, x: int)
    requires x in s
    ensures RemoveFirst(s, x) == s[..FirstIndex(s, x)] + s[FirstIndex(s, x) + 1..]
    ensures exists i :: 0 <= i < |s| && s[i] == x && x !in s[..i] && RemoveFirst(s, x) == s[..i] + s[i + 1..]
  {
    var i := FirstIndex(s, x);
    if s[0] != x {
      RemoveFirstAt(s[1..], x);
      assert FirstIndex(s[1..], x) == i - 1;
      assert s[1..][..i - 1] == s[1..i];
      assert s[..i] == [s[0]] + s[1..i];
      assert s[1..][i..] == s[i + 1..];
    } else {
      assert s[..i] == [];
    }
    assert s[i] == x && x !in s[..i] && RemoveFirst(s, x) == s[..i] + s[i + 1..];
  }

  /** `RemoveLast` cuts out exactly the entry at the last index holding
      `x`: some entry equal to `x`, with no `x` after it. */
  lemma {:induction false} RemoveLastAt(s: seq<int>, x: int)
    requires x in s
    ensures RemoveLast(s, x) == s[..LastIndex(s, x)] + s[LastIndex(s, x) + 1..]
    ensures exists i :: 0 <= i < |s| && s[i] == x && x !in s[i + 1..] && RemoveLast(s, x) == s[..i] + s[i + 1..]
  {
    var i := LastIndex(s, x);
    if s[|s| - 1] != x {
      var init := s[..|s| - 1];
      assert x in init by {
        assert s == init + [s[|s| - 1]];
      }
      assert i == LastIndex(init, x) && i < |init|;
      assert RemoveLast(s, x) == RemoveLast(init, x) + [s[|s| - 1]];
      RemoveLastAt(init, x);
      assert init[..i] == s[..i];
      assert init[i + 1..] + [s[|s| - 1]] == s[i + 1..];
    } else {
      assert s[i + 1..] == [];
    }
    assert s[i] == x && x !in s[i + 1..] && RemoveLast(s, x) == s[..i] + s[i + 1..];
  }

  /** The index `indexOf` returns: the first position holding `x`. */
  function FirstIndex(s: seq<int>, x: int): (i: nat)
    requires x in s
    ensures i < |s| && s[i] == x && x !in s[..i]
  {
    if s[0] == x then 0 else FirstIndex(s[1..], x) + 1
  }

  /** The index the overwriting `forEach` scan ends with: the last position
      holding `x`. */
  function LastIndex(s: seq<int>, x: int): (i: nat)
    requires x in s
    ensures i < |s| && s[i] == x && x !in s[i + 1..]
  {
    if s[|s| - 1] == x then |s| - 1 else LastIndex(s[..|s| - 1], x)
  }

  /** The elements of `s` outside `drop`, in their original order. */
  function Without(s: seq<int>, drop: set<int>): (r: seq<int>)
    ensures forall y :: y in r <==> y in s && y !in drop
  {
    if s == [] then []
    else if s[0] in drop then Without(s[1..], drop)
    else [s[0]] + Without(s[1..], drop)
  }

  lemma {:induction false} WithoutIsSubsequence(s: seq<int>, drop: set<int>)
    ensures Subsequence(Without(s, drop), s)
  {
    if s != [] {
      WithoutIsSubsequence(s[1..], drop);
      if s[0] !in drop {
        assert Without(s, drop)[1..] == Without(s[1..], drop);
      } else {
        var w := Without(s, drop);
        assert w != [] ==> w[0] in w && w[0] != s[0];
      }
    }
  }

  lemma {:induction false} RemoveFirstIsWithout(s: seq<int>, x: int)
    requires NoDup(s)
    ensures RemoveFirst(s, x) == Without(s, {x})
  {
    if s != [] {
      assert NoDup(s[1..]) by {
        forall i, j | 0 <= i < j < |s[1..]| ensures s[1..][i] != s[1..][j] {
          assert s[1..][i] == s[i + 1] && s[1..][j] == s[j + 1];
        }
      }
      RemoveFirstIsWithout(s[1..], x);
      if s[0] == x {
        WithoutAbsent(s[1..], {x});
      }
    }
  }

  lemma {:induction false} RemoveLastIsWithout(s: seq<int>, x: int)
    requires NoDup(s)
    ensures RemoveLast(s, x) == Without(s, {x})
  {
    if s != [] {
      var init := s[..|s| - 1];
      var last := s[|s| - 1];
      assert s == init + [last];
      assert NoDup(init);
      RemoveLastIsWithout(init, x);
      WithoutAppend(init, [last], {x});
      if last == x {
        WithoutAbsent(init, {x});
      } else {
        assert Without([last], {x}) == [last];
      }
    }
  }

  /** Removing values that do not occur changes nothing. */
  lemma {:induction false} WithoutAbsent(s: seq<int>, drop: set<int>)
    requires forall i :: 0 <= i < |s| ==> s[i] !in drop
    ensures Without(s, drop) == s
  {
    if s != [] {
      assert forall i :: 0 <= i < |s[1..]| ==> s[1..][i] == s[i + 1];
      WithoutAbsent(s[1..], drop);
      assert s == [s[0]] + s[1..];
    }
  }

  lemma {:induction false} WithoutAppend(a: seq<int>, b: seq<int>, drop: set<int>)
    ensures Without(a + b, drop) == Without(a, drop) + Without(b, drop)
  {
    if a != [] {
      assert (a + b)[1..] == a[1..] + b;
      WithoutAppend(a[1..], b, drop);
    } else {
      assert a + b == b;
    }
  }

  /** Filtering twice is filtering once by the union. */
  lemma {:induction false} WithoutTwice(s: seq<int>, a: set<int>, b: set<int>)
    ensures Without(Without(s, a), b) == Without(s, a + b)
  {
    if s != [] {
      WithoutTwice(s[1..], a, b);
    }
  }

  lemma {:induction false} WithoutKeepsNoDup(s: seq<int>, drop: set<int>)
    requires NoDup(s)
    ensures NoDup(Without(s, drop))
  {
    if s != [] {
      assert NoDup(s[1..]);
      WithoutKeepsNoDup(s[1..], drop);
      if s[0] !in drop {
        var w := Without(s[1..], drop);
        assert s[0] !in s[1..];
        assert s[0] !in w;
        var r := [s[0]] + w;
        forall i, j | 0 <= i < j < |r| ensures r[i] != r[j] {
          if i == 0 {
            assert r[j] == w[j - 1];
            assert r[j] in w;
          } else {
            assert r[i] == w[i - 1] && r[j] == w[j - 1];
          }
        }
      }
    }
  }

  /** Values of `s` other than its head are values of its tail. */
  lemma SubsetOfTail(s: seq<int>, drop: set<int>)
    requires s != [] && drop <= Elems(s) && s[0] !in drop
    ensures drop <= Elems(s[1..])
  {
    forall y | y in drop ensures y in Elems(s[1..]) {
      assert y in s;
      var i :| 0 <= i < |s| && s[i] == y;
      assert s[1..][i - 1] == y;
    }
  }

  /** Deleting a set of `k` distinct values that all occur in a duplicate-free
      sequence shortens it by exactly `k`. */
  lemma {:induction false} WithoutLength(s: seq<int>, drop: set<int>)
    requires NoDup(s)
    requires drop <= Elems(s)
    ensures |Without(s, drop)| + |drop| == |s|
  {
    if s == [] {
      assert drop == {};
    } else {
      var rest := s[1..];
      assert NoDup(rest);
      if s[0] in drop {
        var drop' := drop - {s[0]};
        SubsetOfTail(s, drop');
        WithoutLength(rest, drop');
        assert s[0] !in rest;
        WithoutAbsent(rest, {s[0]});
        WithoutTwice(rest, {s[0]}, drop');
        assert {s[0]} + drop' == drop;
      } else {
        SubsetOfTail(s, drop);
        WithoutLength(rest, drop);
      }
    }
  }

  /** A duplicate-free sequence has as many distinct values as positions. */
  lemma {:induction false} NoDupCardinality(s: seq<int>)
    requires NoDup(s)
    ensures |Elems(s)| == |s|
  {
    if s != [] {
      assert NoDup(s[1..]);
      NoDupCardinality(s[1..]);
      assert s[0] !in s[1..];
      assert Elems(s) == Elems(s[1..]) + {s[0]};
    }
  }

  lemma {:induction false} SubsequenceKeepsIncreasing(a: seq<int>, b: seq<int>)
    requires Subsequence(a, b)
    requires StrictlyIncreasing(b)
    ensures StrictlyIncreasing(a)
    ensures forall y :: y in a ==> y in b
    decreases |b|
  {
    if a != [] && b != [] {
      assert StrictlyIncreasing(b[1..]);
      if a[0] == b[0] {
        SubsequenceKeepsIncreasing(a[1..], b[1..]);
        forall y | y in a ensures y in b {
          if y != a[0] {
            var i :| 0 <= i < |a| && a[i] == y;
            assert a[1..][i - 1] == y;
            assert y in a[1..];
            var k :| 0 <= k < |b[1..]| && b[1..][k] == y;
            assert b[k + 1] == y;
          } else {
            assert b[0] == y;
          }
        }
        forall j | 0 < j < |a| ensures a[0] < a[j] {
          assert a[j] == a[1..][j - 1];
          assert a[j] in b[1..];
        }
      } else {
        SubsequenceKeepsIncreasing(a, b[1..]);
      }
    }
  }

  /** Takes each id of `ids` off `s` in turn, each with the last-match scan. */
  function RemoveEachLast(s: seq<int>, ids: seq<int>): (r: seq<int>)
    ensures forall y :: y in r ==> y in s
    decreases |ids|
  {
    if ids == [] then s else RemoveEachLast(RemoveLast(s, ids[0]), ids[1..])
  }

  /** On a duplicate-free sequence, removing the ids one by one is the same as
      filtering them all out at once. */
  lemma {:induction false} RemoveEachLastIsWithout(s: seq<int>, ids: seq<int>)
    requires NoDup(s)
    ensures RemoveEachLast(s, ids) == Without(s, Elems(ids))
    decreases |ids|
  {
    if ids == [] {
      assert Elems(ids) == {};
      WithoutAbsent(s, {});
    } else {
      RemoveLastIsWithout(s, ids[0]);
      WithoutKeepsNoDup(s, {ids[0]});
      RemoveEachLastIsWithout(Without(s, {ids[0]}), ids[1..]);
      WithoutTwice(s, {ids[0]}, Elems(ids[1..]));
      assert {ids[0]} + Elems(ids[1..]) == Elems(ids);
    }
  }

  /** Taking `ids` off one by one and then `x` by indexOf is filtering all
      of them out at once. */
  lemma RemoveEachThenFirst(s: seq<int>, ids: seq<int>, x: int)
    requires NoDup(s)
    ensures RemoveFirst(RemoveEachLast(s, ids), x) == Without(s, Elems(ids) + {x})
  {
    var E := Elems(ids);
    RemoveEachLastIsWithout(s, ids);
    WithoutKeepsNoDup(s, E);
    RemoveFirstIsWithout(Without(s, E), x);
    WithoutTwice(s, E, {x});
  }

  lemma IncreasingNoDup(s: seq<int>)
    requires StrictlyIncreasing(s)
    ensures NoDup(s)
  {
  }
}
